=== FILE: README.md ===
# Giang Nam Bách Cảnh Đồ fan site: page state model

This project models a fan site for the game "江南百景圖" (Giang Nam Bách Cảnh Đồ). It models the state each page keeps and how each handler changes that state.

- **List pages.** Story, cities, community links and quests keep their list in memory. They edit it through one shared add/edit dialog: the list, the record being edited, a partial form, and whether the dialog is open.
- **Character pages.** The two pages backed by the document database (Thiên and Hầu) use the same dialog. Their handlers change the list only after the awaited database call has succeeded.
- **Gallery.** A category filter, an upload dialog and a lightbox cursor.
- **Home.** A card slider that wraps around with JavaScript's `%`. Cards are drawn with icons looked up by name.
- **Settings.** An editor for the home cards, the logo and the theme colours, with a dirty flag that enables save.

How the model is built:

- Every handler is a pure function from the page state to the new page state.
- A database call is represented by its outcome, `Remote`.
- The id the database hands out, the `Date.now()` id, the operator's answer to `confirm()` and the data URL of a logo file are parameters.
- Forms typed `Partial<T>` are datatypes of `Option` fields; `None` is an absent key.
- JavaScript's `a || b` on strings is `Wrappers.OrElse`: an absent key and an empty string both fall back.
- The object spread `{ ...a, ...b }` is `Wrappers.Overlay`, one field at a time.

Modules:

- `Wrappers`: the `Option` type, `||` and the spread.
- `RecordList`: filter, delete by id, update by id and set toggle, over sequences of any record type.
- `Editor`: the dialog editor. It is generic in the record, the form and the key.
- One module per page: `Story`, `Cities`, `Community`, `Quests`, `Gallery`, `Home`, `Settings`.
- `Characters`: what the Thiên and Hầu pages share. `Thien` and `Hau` hold their different deletes.
- `Icons`: the icon registry.

## Model

| member | source | states |
|---|---|---|
| RecordList.Keep | app/gallery/page.tsx:93-94 | The filtered list keeps exactly the records satisfying the test: each result element is from the input and passes, and each passing input element is kept. |
| RecordList.KeepConcat | app/gallery/page.tsx:93-94 | Filtering keeps relative order: filtering a concatenation is the concatenation of the filtered parts. |
| RecordList.RemoveWhere | app/story/page.tsx:69-71 | Deleting by id keeps exactly the records with another id, in their original order: the result is a subsequence of the input, holds no record with the id, and is as long as the input minus the records carrying the id. |
| RecordList.KeepSubseq | app/gallery/page.tsx:93-94 | The filtered list is a subsequence of the input: records keep their order. |
| RecordList.SubseqBound | app/gallery/page.tsx:93-94 | A list of passing records taken from the input in order is never longer than the filter. |
| RecordList.KeepExact | app/gallery/page.tsx:93-94 | A list of passing records taken from the input in order and as long as the filter is the filter: order and multiplicity are fixed. |
| RecordList.RemoveWhereExact | app/story/page.tsx:69-71 | Any subsequence of the input that holds no record with the key and is as long as the records without it is the delete's result: the delete contracts leave no freedom. |
| RecordList.RemoveConcat | app/cities/page.tsx:68-70 | Deleting from a concatenation deletes from each part and keeps the parts in order. |
| RecordList.RemoveIdempotent | app/cities/page.tsx:68-70 | Deleting the same id twice is the same as deleting it once. |
| RecordList.RemoveUndoesAppend | app/cities/page.tsx:49-70 | Appending a record under an id no record has, then deleting that id, gives the list back. |
| RecordList.RemoveUndoesPrepend | app/characters/thien/page.tsx:124-157 | Putting a record first under an unused id, then deleting that id, gives the list back. |
| RecordList.UpdateWhere | app/characters/thien/page.tsx:99 | Update by id keeps the length. Each record with the id becomes the merged record. Every other record is unchanged in place. |
| RecordList.RemoveAfterUpdate | app/quests/page.tsx:80-110 | When the merge keeps ids, deleting an id after updating it equals deleting it without the update. |
| RecordList.UpdateIdempotent | app/characters/hau/page.tsx:70 | Repeating an id-preserving, idempotent update changes nothing more. |
| RecordList.Toggle | app/characters/thien/page.tsx:81-89 | Toggling flips membership of the toggled id and of no other id. |
| RecordList.ToggleInvolution | app/characters/hau/page.tsx:52-60 | Two toggles of the same id give back the original set. |
| Editor.BeginEdit | app/story/page.tsx:63-67 | Edit remembers the record, seeds the form from it and opens the dialog. The list is untouched. |
| Editor.ResetForm | app/story/page.tsx:73-76 | Reset forgets the edited record and blanks the form. The list and the dialog are untouched. |
| Editor.OpenForAdd | app/story/page.tsx:112-117 | The header add button, being the dialog trigger with a reset handler, leaves the dialog open in add mode with a blank form. |
| Editor.OpenDialog | app/story/page.tsx:237 | The empty-list button only opens the dialog. The edited record and the form stay as they were. |
| Editor.CloseDialog | app/story/page.tsx:168 | Cancel closes the dialog and keeps the edited record and the form. |
| Editor.SetForm | app/community/page.tsx:185 | Typing replaces the form and nothing else. |
| Editor.Submit | app/story/page.tsx:43-61 | With a record being edited, every record with its key is merged with the form and the length is kept; otherwise exactly one built record is appended. Afterwards the dialog is closed, the form blank and nothing is being edited. |
| Editor.Delete | app/cities/page.tsx:68-70 | Delete keeps exactly the records with another key, in their original order, and leaves the dialog state alone. |
| Editor.EditThenSubmitUnchanged | app/story/page.tsx:46-67 | Opening a record that is unique under its key and saving without typing leaves the list unchanged. |
| Editor.AddThenDeleteRestores | app/community/page.tsx:62-85 | Adding under a fresh key and deleting that key restores the list. |
| Editor.AddButtonAlwaysAdds | app/cities/page.tsx:111-115 | After the header add button, whatever is typed, submit appends exactly the record built from the typed form. |
| Editor.StaleEditSwallowsAdd | app/cities/page.tsx:231-236 | After the empty-list button with a stale edited record whose key no record carries, submit leaves the list unchanged: the add is lost. |
| Story.Merge | app/story/page.tsx:47 | Merging a form keeps the id. Each present form field replaces the record's field and each absent one keeps it. |
| Story.Build | app/story/page.tsx:50-55 | An added story never has an empty image. A missing or empty image becomes the placeholder, and a missing name or story becomes "". |
| Story.Seed | app/story/page.tsx:63-67 | Merging the seeded form over any record with the same id gives the seeded story. Building from it reproduces the story exactly when its image is not empty. |
| Story.Submit | app/story/page.tsx:43-61 | The shared submit: update the edited id in place, or append one new story at the end. |
| Story.Edit | app/story/page.tsx:63-67 | Edit opens the dialog on the story, and its form merges back to that story. |
| Story.Delete | app/story/page.tsx:69-71 | Delete keeps exactly the stories with another id, in their original order. |
| Story.ResetForm | app/story/page.tsx:73-76 | Reset leaves add mode with an empty form. |
| Story.AddThenDelete | app/story/page.tsx:50-71 | Adding then deleting under a fresh id restores the list. |
| Story.EditThenSave | app/story/page.tsx:46-67 | Editing a story with a unique id and saving it untouched keeps the list. |
| Story.EmptyListButtonLosesAdd | app/story/page.tsx:228-237 | A concrete run from the page's two opening stories. Edit story 1, cancel, delete story 2 and story 1, press the empty-list button, type a name and a story over the stale form, submit. The list stays empty. |
| Story.AddButtonKeepsAdd | app/story/page.tsx:112-117 | The same run through the header add button, typing the two required fields into the empty form, adds the typed story with the placeholder image. |
| Cities.Merge | app/cities/page.tsx:46 | Present form fields replace, absent ones keep, and the id is kept. |
| Cities.Build | app/cities/page.tsx:49-54 | An added city never has an empty image. A missing or empty image becomes the placeholder. |
| Cities.Seed | app/cities/page.tsx:62-66 | The seeded form merges back to the city, and it rebuilds the city exactly when the image is not empty. |
| Cities.Submit | app/cities/page.tsx:42-60 | Update the edited id in place, or append one new city. |
| Cities.Edit | app/cities/page.tsx:62-66 | Edit opens the dialog on the city, and its form merges back to that city. |
| Cities.Delete | app/cities/page.tsx:68-70 | Delete keeps exactly the cities with another id, in their original order. |
| Cities.ResetForm | app/cities/page.tsx:72-75 | Reset leaves add mode with an empty form. |
| Cities.AddThenDelete | app/cities/page.tsx:49-70 | Adding then deleting under a fresh id restores the list. |
| Cities.EditThenSave | app/cities/page.tsx:45-66 | Editing a unique city and saving it untouched keeps the list. |
| Community.Merge | app/community/page.tsx:59 | Present form fields replace, absent ones keep, including the optional member count. |
| Community.Build | app/community/page.tsx:62-69 | A missing or empty type becomes "chat". The member count is copied as is. Missing text fields become "". |
| Community.Seed | app/community/page.tsx:77-81 | The seeded form merges back to the link. It rebuilds the link under its id exactly when the link's type is not empty. |
| Community.Submit | app/community/page.tsx:55-75 | Update the edited id in place, or append one new link. |
| Community.Edit | app/community/page.tsx:77-81 | Edit opens the dialog on the link, and its form merges back to that link. |
| Community.Delete | app/community/page.tsx:83-85 | Delete keeps exactly the links with another id, in their original order. |
| Community.ResetForm | app/community/page.tsx:87-90 | Reset leaves add mode with an empty form. |
| Community.AddThenDelete | app/community/page.tsx:62-85 | Adding then deleting under a fresh id restores the list. |
| Community.EditThenSave | app/community/page.tsx:58-81 | Editing a unique link and saving it untouched keeps the list. |
| Community.TypeName | app/community/page.tsx:118-129 | The label is "Khác" exactly for types other than chat, facebook and clan. |
| Community.TypeColor | app/community/page.tsx:105-116 | The colour is grey exactly for unknown types. |
| Community.TypeIcon | app/community/page.tsx:92-103 | Facebook links show the Users icon, clans the Shield icon, and the chat icon is shown exactly for every other type. |
| Community.LabelsIdentifyKinds | app/community/page.tsx:105-129 | Two known types with the same label or the same colour are the same type. |
| Community.DefaultKindIsChat | app/community/page.tsx:62-69 | A link added with no type is labelled and drawn as a chat group. |
| Quests.Build | app/quests/page.tsx:84-88 | A new quest takes every form field, including the image, under the new id. |
| Quests.Merge | app/quests/page.tsx:81 | The form has every key, so an updated quest is exactly the quest an add of the same form would build under its id. |
| Quests.Seed | app/quests/page.tsx:95-106 | The edit form copies every field and uses "" for a missing image: saving it back gives the quest with only a missing image filled in as "". That is the quest itself exactly when the quest had an image. |
| Quests.Submit | app/quests/page.tsx:77-93 | Update the edited id in place, or append the built quest. Afterwards the form holds the defaults and the dialog is closed. |
| Quests.Edit | app/quests/page.tsx:95-106 | Edit opens the dialog on the quest. Its form holds every field of the quest, with a missing image shown as "", so saving it gives the quest back with only the image key filled in. |
| Quests.OpenForAdd | app/quests/page.tsx:164-173 | The header button forgets the edited quest, restores the defaults and opens the dialog. |
| Quests.Delete | app/quests/page.tsx:108-110 | Delete keeps exactly the quests with another id, in their original order. |
| Quests.AddThenDelete | app/quests/page.tsx:84-110 | Adding then deleting under a fresh id restores the list. |
| Quests.DifficultyStars | app/quests/page.tsx:138-149 | A difficulty shows between one and four stars. |
| Quests.StarsFollowDifficultyOrder | app/quests/page.tsx:138-149 | Stars grow strictly in the form's difficulty order; the i-th difficulty shows i+1 stars. |
| Quests.DifficultyColor | app/quests/page.tsx:112-123 | Each difficulty's class is a badge: a light background and dark text of one hue. |
| Quests.TypeColor | app/quests/page.tsx:125-136 | Each type's class is a badge of one hue. |
| Quests.BadgeInjective | app/quests/page.tsx:112-136 | The hue can be read back from a badge, so different hues give different badges. |
| Quests.BadgeColorsDistinct | app/quests/page.tsx:112-136 | Distinct difficulties have distinct colours, and so do distinct types. |
| Quests.CountOfType | app/quests/page.tsx:285-303 | A type's count is at most the total. It equals the total when every quest has the type, is zero when none has it, and is positive when some quest has it. |
| Quests.TypeCountsPartition | app/quests/page.tsx:277-304 | Every quest has exactly one type, so the four per-type counts add up to the total. |
| Quests.Stats | app/quests/page.tsx:277-304 | The counters are the total and the main, side and daily counts. Each count is at most the total, and together they fall short of it by exactly the event quests. |
| Gallery.Filtered | app/gallery/page.tsx:93-94 | "Tất Cả" shows every image. Any other category shows exactly that category's images. |
| Gallery.FilteredConcat | app/gallery/page.tsx:93-94 | The filtered view of an appended list extends the old view. |
| Gallery.UploadChoices | app/gallery/page.tsx:184 | The upload form offers every category except "Tất Cả". |
| Gallery.Upload | app/gallery/page.tsx:96-105 | Upload appends one image carrying the form's fields, resets the form to "Phong Cảnh" and closes the dialog. |
| Gallery.Delete | app/gallery/page.tsx:107-112 | Delete keeps exactly the images with another id, in their original order, and closes the lightbox. |
| Gallery.Open | app/gallery/page.tsx:114-116 | Opening the lightbox selects the index. |
| Gallery.Close | app/gallery/page.tsx:118-120 | Closing the lightbox clears the selection. |
| Gallery.SelectCategory | app/gallery/page.tsx:222 | A category button changes only the category; the cursor is kept. |
| Gallery.Previous | app/gallery/page.tsx:122-126 | Previous moves back one image only from a selection above 0. |
| Gallery.Next | app/gallery/page.tsx:128-132 | Next moves on one image only while the selection is before the last filtered image. |
| Gallery.CursorStaysValid | app/gallery/page.tsx:96-132 | Previous, next, close, delete and upload keep the cursor inside the filtered view. Opening a shown image also leaves it inside. |
| Gallery.PreviousUndoesNext | app/gallery/page.tsx:122-132 | A next that moved is undone by previous. |
| Gallery.NextUndoesPrevious | app/gallery/page.tsx:122-132 | A previous that moved is undone by next. |
| Gallery.DeleteUndoesUpload | app/gallery/page.tsx:96-112 | Uploading under a fresh id and deleting that id restores the image list. |
| Home.JsRem | app/page.tsx:71-77 | JavaScript remainder: NaN (None) exactly for a zero divisor; otherwise within [0, b) for a non-negative dividend. |
| Home.NextSlide | app/page.tsx:71-73 | With no slides the index is NaN. Otherwise next moves one card on and wraps from the last card to the first. |
| Home.PrevSlide | app/page.tsx:75-77 | With no slides the index is NaN. Otherwise the result is a valid index from any start, and from a valid index previous moves one card back, wrapping from the first card to the last. |
| Home.NextPrevInverse | app/page.tsx:71-77 | On a valid index, next and previous undo each other. |
| Home.Advance | app/page.tsx:64-69 | k timer ticks from a valid index stay on a valid index. |
| Home.FullRoundReturns | app/page.tsx:64-73 | n steps of next over n cards return to the starting card. |
| Home.Step | app/page.tsx:64-77 | Each slider event keeps the card count. The index becomes NaN exactly for a button or tick with no cards. A valid slider stays valid under the buttons, the tick and any in-range dot. |
| Home.TickIsNext | app/page.tsx:64-73 | The five-second tick is the same transition as the next button. |
| Icons.Find | app/settings/page.tsx:254-257 | The lookup finds nothing exactly when no option carries the name; otherwise it returns the first option that does. |
| Icons.FindFirst | app/settings/page.tsx:254-257 | The lookup returns the option at a position whose name matches when no earlier option has that name. |
| Icons.SettingsResolves | app/settings/page.tsx:254-257 | The settings page resolves every registered icon's name to that icon. |
| Icons.NameResolves | app/page.tsx:79-89 | Both pages resolve every registered icon's name to that icon. |
| Icons.UnknownNameIsUsers | app/page.tsx:79-89 | An unregistered name falls back to Users on both pages. |
| Icons.SettingsIcon | app/settings/page.tsx:254-257 | The icon found carries the looked-up name, or is Users; a name no icon carries gives Users. |
| Icons.HomeIcon | app/page.tsx:79-89 | A name that is a key gets the icon registered under that name; any other name gets Users. |
| Icons.LookupsAgree | app/settings/page.tsx:254-257 | The settings preview and the home page show the same icon for every name that is not an inherited object key (see Left out). |
| Settings.SetField | app/settings/page.tsx:152-155 | Setting a card field makes it read back as the value and leaves every other field as it was. |
| Settings.UpdateCard | app/settings/page.tsx:152-155 | Only cards with the id change, and only in the edited field. The logo and theme are kept and the editor is dirty. |
| Settings.LogoFileChosen | app/settings/page.tsx:157-172 | A read file becomes the logo image and switches the image logo on. No file changes nothing. |
| Settings.RemoveLogoImage | app/settings/page.tsx:174-184 | Removal clears the image and switches to the icon logo. The text is kept. |
| Settings.SetLogoText | app/settings/page.tsx:397-411 | Each text input changes its own line only and marks the editor dirty. |
| Settings.ApplyTheme | app/settings/page.tsx:186-193 | Choosing a preset sets exactly its three colours. |
| Settings.SetThemeColor | app/settings/page.tsx:483-541 | A colour input changes one colour; the other two stay. |
| Settings.Save | app/settings/page.tsx:195-207 | Save keeps the content and clears the dirty flag, which disables the save button. |
| Settings.Reset | app/settings/page.tsx:209-252 | Reset restores the default cards, logo and theme and leaves the editor dirty. |
| Settings.Step | app/settings/page.tsx:152-252 | Each input touches only its own section: cards change only by a card edit or reset, the logo only by the logo inputs or reset, the theme only by a preset, a colour input or reset; save changes only the flag. |
| Settings.DirtyFlag | app/settings/page.tsx:152-300 | Save clears the flag and choosing no file keeps it. Every other input sets it, so save is enabled after any edit. |
| Settings.ResetThenSaveIsInitial | app/settings/page.tsx:195-252 | Reset then save is the state the page mounts with. |
| Settings.DefaultThemeIsFirstPreset | app/settings/page.tsx:113-119 | The default colours are the first preset's. |
| Settings.LastPresetWins | app/settings/page.tsx:186-193 | Of two presets picked in a row only the last matters. |
| Settings.RemoveUndoesLoad | app/settings/page.tsx:157-184 | Removing the image after loading one is the same as removing it directly. |
| Settings.UpdateKeepsIds | app/settings/page.tsx:152-155 | Editing any field but the id keeps every card's id. |
| Characters.Merge | app/characters/thien/page.tsx:99 | Present form fields replace, absent ones keep, and the id is kept. |
| Characters.Build | app/characters/thien/page.tsx:106-122 | Neither image of an added character is ever empty: each falls back to its own placeholder. Notes and text fields default to "". |
| Characters.Seed | app/characters/thien/page.tsx:146-150 | The seeded form merges back to the character. It rebuilds the character exactly when both images are non-empty and both notes present. |
| Characters.Load | app/characters/thien/page.tsx:65-79 | A successful fetch replaces the list; a failed one changes nothing. |
| Characters.ToggleRow | app/characters/thien/page.tsx:81-89 | A row toggle flips that row's expansion only. |
| Characters.Submit | app/characters/thien/page.tsx:91-144 | A failed call changes nothing. On success, editing a character with a non-empty id merges in place; otherwise the new character goes first. Then the dialog is reset and closed. |
| Characters.RemoveId | app/characters/thien/page.tsx:157 | A successful delete keeps exactly the characters with another id, in their original order. |
| Characters.Edit | app/characters/thien/page.tsx:146-150 | Edit opens the dialog on the character, and its form merges back to it. |
| Characters.ResetForm | app/characters/thien/page.tsx:171-174 | Reset leaves add mode with an empty form. |
| Characters.AddThenRemove | app/characters/thien/page.tsx:124-157 | A successful add under a new id, then a successful delete of it, restores the list. |
| Characters.EditThenSave | app/characters/hau/page.tsx:70-119 | Editing a character with a unique non-empty id and saving untouched keeps the list. |
| Characters.ToggleTwice | app/characters/hau/page.tsx:52-60 | Two toggles of a row cancel out. |
| Thien.Delete | app/characters/thien/page.tsx:152-169 | Nothing changes unless the operator confirms and the call succeeds. Then exactly the characters with the id go. |
| Hau.Delete | app/characters/hau/page.tsx:121-142 | A character without an id is ignored. Otherwise nothing changes unless the operator confirms and the call succeeds, and then exactly the characters with its id go. |
| Hau.DeleteRemovesOnlyThatCharacter | app/characters/hau/page.tsx:121-130 | Deleting a character whose id is unique removes it and keeps every other character. |

## Left out

- Reading from and writing to the document database and browser storage. A call is its `Remote` outcome. Error texts and the error-code branches that only pick a message are not modelled.
- The new document id, `Date.now()` ids, `confirm()` and the logo file's data URL are parameters. The `FileReader` itself, toasts and alerts are not modelled.
- The `createdAt`/`updatedAt` timestamps the database layer adds are not modelled. Loaded characters carry them (lib/firebase-service.ts:114-119). An edit copies them into the form and an update sends them back, but only as the edited record's own values. Leaving them out therefore changes no list result.
- Submit is modelled for every form, including forms the browser would refuse. The browser's own checks are not modelled: inputs marked `required` that are empty, and malformed `type="url"` values (for example app/story/page.tsx:133-154, app/quests/page.tsx:191-252, app/gallery/page.tsx:158-172, app/characters/thien/page.tsx:245-375). With those inputs the browser never calls `handleSubmit`. So the empty-field defaults, such as `Story.Build` turning a missing name into "", describe submits the page cannot make. The all-forms lemmas still cover every submit the page can make.
- Characters.ToggleRow: the Hầu page guards the row toggle on a present id (app/characters/hau/page.tsx:409); the Thiên page does not (app/characters/thien/page.tsx:439). The model follows Thiên. Every loaded or added character carries an id, so the guard never fires.
- The `submitting` and `loading` flags are not modelled. Handlers are atomic, so interleavings of two in-flight awaits are not modelled either.
- Writing the theme to CSS variables on save is not modelled, nor are the timer's five-second period and its clean-up.
- The settings page never reads saved settings back on mount, and the model follows that: the page starts from the defaults.
- A form key present with the value `undefined` is treated like an absent key.
- Icons.LookupsAgree: holds only for names that are not inherited object keys, for the reason on the next line.
- Icons.HomeIcon: a plain object lookup also answers for inherited names such as "constructor". The model treats every unregistered name as falling back to Users, because the stored names always come from the fixed six-option select.
- Home.Step: the hero section's three indicator dots are fixed. A dot beyond the card count is an `Indicator` index out of range, and the model only promises validity for in-range dots.
- Gallery.SelectCategory: switching category keeps the lightbox cursor, as the code does. A cursor can then point past the new view, and `CursorStaysValid` does not cover category changes.
- The character pages have no CSV import wizard. Their list, dialog, submit and delete are modelled; a wizard would need code that does not exist here.
- The unused `characterFields` list on the Thiên page is not modelled.
- The static character pages (Tiên, Thần Tướng, the character index) have no state and are not modelled.

## Findings

| source | as written | input that shows it | evidently intended | confidence | as-written member | corrected member |
|---|---|---|---|---|---|---|
| app/story/page.tsx:237 (same button on app/cities/page.tsx:236, app/community/page.tsx:325, app/quests/page.tsx:390, app/characters/thien/page.tsx:548, app/characters/hau/page.tsx:517) | The "add the first record" button on an empty list only opens the dialog. It does not reset the edited record or the form. | On the story page as it opens (stories 1 "Lý Bạch" and 2 "Tô Đông Pha"): edit story 1, cancel, delete story 2, delete story 1, press the empty-list button, type the name "Đỗ Phủ" and the story "Thi Thánh" over the stale form, submit. Submit updates the deleted id, so the list stays empty. On the Thiên and Hầu pages the same steps, after deleting every loaded character, send an update for a deleted document (lib/firebase-service.ts:158-165); the database rejects it, so `Characters.Submit` takes its `Failed` branch: nothing is added, an error notice is shown and the dialog stays open. | The button should reset like the header's add button does, so that submit appends the typed story. | not executed | Editor.StaleEditSwallowsAdd, Story.EmptyListButtonLosesAdd | Editor.AddButtonAlwaysAdds, Story.AddButtonKeepsAdd |

=== FILE: characters.dfy ===
/** The two character pages backed by the document database, Thiên and Hầu.
    Their records, forms and handlers are identical except for delete (see
    the `Thien` and `Hau` modules) and the row toggle. Hầu skips the toggle
    for a character without an id. That never happens, because every loaded
    or added character carries one. Every handler writes the in-memory list
    only after its remote call has succeeded; a remote call is modelled by
    its outcome, and the id the database assigns to a new record is a
    parameter. */
module Characters {
  import opened Wrappers
  import RecordList
  import Editor

  /** `ThienCharacter` / `HauCharacter`, without the two timestamps. */
  datatype Character = Character(
    id: Option<string>, name: string, image: string, note1: Option<string>,
    star2: string, star3: string, star4: string,
    construction: string, farming: string, production: string, finance: string, exploration: string,
    treasureName: string, treasureImage: string, level50Stats: string, note2: Option<string>)

  /** `Partial<ThienCharacter>` without the id and timestamps (see `Story.StoryForm`). */
  datatype CharacterForm = CharacterForm(
    name: Option<string>, image: Option<string>, note1: Option<string>,
    star2: Option<string>, star3: Option<string>, star4: Option<string>,
    construction: Option<string>, farming: Option<string>, production: Option<string>,
    finance: Option<string>, exploration: Option<string>,
    treasureName: Option<string>, treasureImage: Option<string>, level50Stats: Option<string>,
    note2: Option<string>)

  const Blank: CharacterForm :=
    CharacterForm(None, None, None, None, None, None, None, None, None, None, None, None, None, None, None)

  const ImagePlaceholder: string := "/placeholder.svg?height=100&width=100"
  const TreasurePlaceholder: string := "/placeholder.svg?height=60&width=60"

  /** How an awaited database call ended. */
  datatype Remote = Succeeded | Failed

  /** The page: the shared dialog editor and the set of expanded row ids. */
  datatype Page = Page(editor: Editor.Editor<Character, CharacterForm>, expanded: set<string>)

  function IdOf(c: Character): Option<string> { c.id }

  /** `{ ...char, ...formData }`: present form keys replace, absent ones keep. */
  function Merge(c: Character, f: CharacterForm): (r: Character)
    ensures r.id == c.id
    ensures r.name == f.name.GetOr(c.name) && r.image == f.image.GetOr(c.image)
    ensures r.note1 == (if f.note1.Some? then f.note1 else c.note1)
    ensures r.note2 == (if f.note2.Some? then f.note2 else c.note2)
    ensures r.star2 == f.star2.GetOr(c.star2) && r.star3 == f.star3.GetOr(c.star3) && r.star4 == f.star4.GetOr(c.star4)
    ensures r.construction == f.construction.GetOr(c.construction) && r.farming == f.farming.GetOr(c.farming)
    ensures r.production == f.production.GetOr(c.production) && r.finance == f.finance.GetOr(c.finance)
    ensures r.exploration == f.exploration.GetOr(c.exploration)
    ensures r.treasureName == f.treasureName.GetOr(c.treasureName)
    ensures r.treasureImage == f.treasureImage.GetOr(c.treasureImage)
    ensures r.level50Stats == f.level50Stats.GetOr(c.level50Stats)
  {
    Character(c.id, Overlay(c.name, f.name), Overlay(c.image, f.image), OverlayOption(c.note1, f.note1),
              Overlay(c.star2, f.star2), Overlay(c.star3, f.star3), Overlay(c.star4, f.star4),
              Overlay(c.construction, f.construction), Overlay(c.farming, f.farming),
              Overlay(c.production, f.production), Overlay(c.finance, f.finance),
              Overlay(c.exploration, f.exploration), Overlay(c.treasureName, f.treasureName),
              Overlay(c.treasureImage, f.treasureImage), Overlay(c.level50Stats, f.level50Stats),
              OverlayOption(c.note2, f.note2))
  }

  /** The character an add stores under the database's new id: a missing or
      empty image or treasure image becomes its placeholder, so neither is
      ever empty; every other missing or empty field, both notes included,
      becomes "". */
  function Build(id: string, f: CharacterForm): (r: Character)
    ensures r.id == Some(id) && r.image != "" && r.treasureImage != ""
    ensures f.image.Some? && f.image.value != "" ==> r.image == f.image.value
    ensures f.image.None? || f.image == Some("") ==> r.image == ImagePlaceholder
    ensures f.treasureImage.Some? && f.treasureImage.value != "" ==> r.treasureImage == f.treasureImage.value
    ensures f.treasureImage.None? || f.treasureImage == Some("") ==> r.treasureImage == TreasurePlaceholder
    ensures r.note1 == Some(f.note1.GetOr("")) && r.note2 == Some(f.note2.GetOr(""))
    ensures r.name == f.name.GetOr("") && r.star2 == f.star2.GetOr("") && r.star3 == f.star3.GetOr("")
    ensures r.star4 == f.star4.GetOr("") && r.construction == f.construction.GetOr("")
    ensures r.farming == f.farming.GetOr("") && r.production == f.production.GetOr("")
    ensures r.finance == f.finance.GetOr("") && r.exploration == f.exploration.GetOr("")
    ensures r.treasureName == f.treasureName.GetOr("") && r.level50Stats == f.level50Stats.GetOr("")
  {
    Character(Some(id), OrElse(f.name, ""), OrElse(f.image, ImagePlaceholder), Some(OrElse(f.note1, "")),
              OrElse(f.star2, ""), OrElse(f.star3, ""), OrElse(f.star4, ""),
              OrElse(f.construction, ""), OrElse(f.farming, ""), OrElse(f.production, ""),
              OrElse(f.finance, ""), OrElse(f.exploration, ""), OrElse(f.treasureName, ""),
              OrElse(f.treasureImage, TreasurePlaceholder), OrElse(f.level50Stats, ""),
              Some(OrElse(f.note2, "")))
  }

  /** `setFormData(character)`: merging the seeded form over the character
      gives it back, and so does building from it under the same id exactly
      when both images are non-empty and both notes are present. */
  function Seed(c: Character): (r: CharacterForm)
    ensures Merge(c, r) == c
    ensures c.note1.Some? && c.note2.Some? ==> forall x: Character :: x.id == c.id ==> Merge(x, r) == c
    ensures c.id.Some? ==>
              (Build(c.id.value, r) == c <==>
               c.image != "" && c.treasureImage != "" && c.note1.Some? && c.note2.Some?)
  {
    CharacterForm(Some(c.name), Some(c.image), c.note1, Some(c.star2), Some(c.star3), Some(c.star4),
                  Some(c.construction), Some(c.farming), Some(c.production), Some(c.finance),
                  Some(c.exploration), Some(c.treasureName), Some(c.treasureImage), Some(c.level50Stats),
                  c.note2)
  }

  /** `editingCharacter && editingCharacter.id`: submit updates only when the
      edited record has a non-empty id. */
  predicate Updating(p: Page)
  {
    p.editor.editing.Some? && p.editor.editing.value.id.Some? && p.editor.editing.value.id.value != ""
  }

  /** `loadCharacters`: a successful fetch replaces the list; a failed one keeps it. */
  function Load(p: Page, fetched: Option<seq<Character>>): (r: Page)
    ensures fetched.Some? ==> r.editor.items == fetched.value
    ensures fetched.None? ==> r == p
    ensures r.editor.editing == p.editor.editing && r.expanded == p.expanded
  {
    match fetched
    case None => p
    case Some(items) => p.(editor := p.editor.(items := items))
  }

  /** `toggleRowExpansion`. */
  function ToggleRow(p: Page, id: string): (r: Page)
    ensures id in r.expanded <==> id !in p.expanded
    ensures forall j :: j != id ==> (j in r.expanded <==> j in p.expanded)
    ensures r.editor == p.editor
  {
    p.(expanded := RecordList.Toggle(p.expanded, id))
  }

  /** `handleSubmit`. If the awaited call fails, the page is as it was (the
      form stays filled and the dialog open). Otherwise an update merges the
      form over every character with the edited id, nothing else changing,
      and an add puts the new character first with the old list after it;
      then the form is cleared, the edited record forgotten, the dialog closed. */
  function Submit(p: Page, outcome: Remote, newId: string): (r: Page)
    ensures outcome.Failed? ==> r == p
    ensures outcome.Succeeded? ==>
              r.editor.editing == None && r.editor.form == Blank && !r.editor.dialogOpen
    ensures r.expanded == p.expanded
    ensures outcome.Succeeded? && Updating(p) ==> |r.editor.items| == |p.editor.items|
    ensures outcome.Succeeded? && Updating(p) ==> forall i :: 0 <= i < |p.editor.items| ==>
              r.editor.items[i] == if p.editor.items[i].id == p.editor.editing.value.id
                                   then Merge(p.editor.items[i], p.editor.form) else p.editor.items[i]
    ensures outcome.Succeeded? && !Updating(p) ==>
              |r.editor.items| == |p.editor.items| + 1 && r.editor.items[1..] == p.editor.items
    ensures outcome.Succeeded? && !Updating(p) ==> r.editor.items[0] == Build(newId, p.editor.form)
  {
    if outcome.Failed? then p
    else
      var e := p.editor;
      var items :=
        if Updating(p) then RecordList.UpdateWhere(e.items, IdOf, e.editing.value.id, c => Merge(c, e.form))
        else [Build(newId, e.form)] + e.items;
      p.(editor := Editor.Editor(items, None, Blank, false))
  }

  /** The delete that follows a confirmed, successful database call: every
      character with the id goes, the rest keep their order. */
  function RemoveId(p: Page, id: string): (r: Page)
    ensures forall i :: 0 <= i < |r.editor.items| ==>
              r.editor.items[i] in p.editor.items && r.editor.items[i].id != Some(id)
    ensures forall i :: 0 <= i < |p.editor.items| && p.editor.items[i].id != Some(id) ==>
              p.editor.items[i] in r.editor.items
    ensures RecordList.SubseqOf(r.editor.items, p.editor.items)
    ensures |r.editor.items| + |RecordList.WithId(p.editor.items, IdOf, Some(id))| == |p.editor.items|
    ensures r.editor.editing == p.editor.editing && r.editor.form == p.editor.form
    ensures r.expanded == p.expanded
  {
    p.(editor := Editor.Delete(p.editor, IdOf, Some(id)))
  }

  /** `handleEdit`. */
  function Edit(p: Page, c: Character): (r: Page)
    ensures r.editor.editing == Some(c) && r.editor.dialogOpen
    ensures Merge(c, r.editor.form) == c
    ensures r.editor.items == p.editor.items && r.expanded == p.expanded
  {
    p.(editor := Editor.BeginEdit(p.editor, c, Seed))
  }

  /** `resetForm`, run by the header's add button. */
  function ResetForm(p: Page): (r: Page)
    ensures r.editor.editing == None && r.editor.form == Blank
    ensures r.editor.items == p.editor.items && r.expanded == p.expanded
  {
    p.(editor := Editor.ResetForm(p.editor, Blank))
  }

  /** A successful add followed by a successful delete of the new id restores
      the list, when no other character had that id. */
  lemma AddThenRemove(p: Page, newId: string)
    requires !Updating(p)
    requires forall i :: 0 <= i < |p.editor.items| ==> p.editor.items[i].id != Some(newId)
    ensures RemoveId(Submit(p, Succeeded, newId), newId).editor.items == p.editor.items
  {
    var added := Submit(p, Succeeded, newId);
    assert added.editor.items == [Build(newId, p.editor.form)] + p.editor.items;
    RecordList.RemoveUndoesPrepend(p.editor.items, Build(newId, p.editor.form), IdOf);
  }

  /** Opening a stored character and saving it untouched leaves the list as
      it was, provided no other record shares its id. */
  lemma EditThenSave(p: Page, c: Character, newId: string)
    requires c.id.Some? && c.id.value != ""
    requires forall i :: 0 <= i < |p.editor.items| && p.editor.items[i].id == c.id ==> p.editor.items[i] == c
    ensures Submit(Edit(p, c), Succeeded, newId).editor.items == p.editor.items
  {
    var e := Edit(p, c);
    var r := Submit(e, Succeeded, newId);
    assert Updating(e);
    assert r.editor.items == p.editor.items;
  }

  /** Any two toggles of the same row cancel out. */
  lemma ToggleTwice(p: Page, id: string)
    ensures ToggleRow(ToggleRow(p, id), id) == p
  {
    RecordList.ToggleInvolution(p.expanded, id);
  }
}

=== FILE: cities.dfy ===
/** The cities page: an in-memory list of cities edited through the shared
    add/edit dialog. */
module Cities {
  import opened Wrappers
  import Editor
  import RecordList

  datatype City = City(id: int, name: string, description: string, image: string)

  /** `Partial<City>`: a missing key is `None`. The seeded form also
      carries the record's id, which always equals the edited record's id and
      so never changes a merged record; it is left out of the form. */
  datatype CityForm = CityForm(name: Option<string>, description: Option<string>, image: Option<string>)

  type Page = Editor.Editor<City, CityForm>

  /** Image given to a city added without one. */
  const Placeholder: string := "/placeholder.svg?height=200&width=300"

  const Blank: CityForm := CityForm(None, None, None)

  function IdOf(c: City): int { c.id }

  /** `{ ...city, ...formData }`: present form keys replace, absent ones keep. */
  function Merge(c: City, f: CityForm): (r: City)
    ensures r.id == c.id
    ensures r.name == f.name.GetOr(c.name)
    ensures r.description == f.description.GetOr(c.description)
    ensures r.image == f.image.GetOr(c.image)
  {
    City(c.id, Overlay(c.name, f.name), Overlay(c.description, f.description), Overlay(c.image, f.image))
  }

  /** The record `handleSubmit` adds: missing or empty name and description
      become "", a missing or empty image becomes the placeholder, so an added
      city never has an empty image. */
  function Build(id: int, f: CityForm): (r: City)
    ensures r.id == id && r.image != ""
    ensures f.image.Some? && f.image.value != "" ==> r.image == f.image.value
    ensures f.image.None? || f.image == Some("") ==> r.image == Placeholder
    ensures r.name == f.name.GetOr("") && r.description == f.description.GetOr("")
  {
    City(id, OrElse(f.name, ""), OrElse(f.description, ""), OrElse(f.image, Placeholder))
  }

  /** `setFormData(city)`: merging the seeded form over any record with
      the same id yields the seeded record, and building from it reproduces
      the record unless its image is empty. */
  function Seed(c: City): (r: CityForm)
    ensures forall x: City :: x.id == c.id ==> Merge(x, r) == c
    ensures c.image != "" <==> Build(c.id, r) == c
  {
    CityForm(Some(c.name), Some(c.description), Some(c.image))
  }

  /** `handleSubmit`: update the edited city's key, or append a new city. */
  function Submit(p: Page, freshId: int): (r: Page)
    ensures r.editing == None && r.form == Blank && !r.dialogOpen
    ensures p.editing.Some? ==> |r.items| == |p.items|
    ensures p.editing.Some? ==> forall i :: 0 <= i < |p.items| ==>
              r.items[i] == if p.items[i].id == p.editing.value.id then Merge(p.items[i], p.form) else p.items[i]
    ensures p.editing.None? ==> |r.items| == |p.items| + 1 && r.items[..|p.items|] == p.items
    ensures p.editing.None? ==> r.items[|p.items|] == Build(freshId, p.form)
  {
    var r := Editor.Submit(p, IdOf, Merge, Build, freshId, Blank);
    assert p.editing.None? ==> r.items[..|p.items|] == p.items;
    r
  }

  /** `handleEdit`. */
  function Edit(p: Page, c: City): (r: Page)
    ensures r.editing == Some(c) && r.dialogOpen && r.items == p.items
    ensures forall x: City :: x.id == c.id ==> Merge(x, r.form) == c
  {
    Editor.BeginEdit(p, c, Seed)
  }

  /** `handleDelete`. */
  function Delete(p: Page, id: int): (r: Page)
    ensures forall i :: 0 <= i < |r.items| ==> r.items[i] in p.items && r.items[i].id != id
    ensures forall i :: 0 <= i < |p.items| && p.items[i].id != id ==> p.items[i] in r.items
    ensures RecordList.SubseqOf(r.items, p.items)
    ensures |r.items| + |RecordList.WithId(p.items, IdOf, id)| == |p.items|
    ensures r.editing == p.editing && r.form == p.form && r.dialogOpen == p.dialogOpen
  {
    Editor.Delete(p, IdOf, id)
  }

  /** `resetForm`, run by the header's add button. */
  function ResetForm(p: Page): (r: Page)
    ensures r.editing == None && r.form == Blank && r.items == p.items
  {
    Editor.ResetForm(p, Blank)
  }

  /** Adding then deleting a city under an id no city has restores the list. */
  lemma AddThenDelete(p: Page, freshId: int)
    requires p.editing.None?
    requires forall i :: 0 <= i < |p.items| ==> p.items[i].id != freshId
    ensures Delete(Submit(p, freshId), freshId).items == p.items
  {
    Editor.AddThenDeleteRestores(p, IdOf, Merge, Build, freshId, Blank);
  }

  /** Opening a city with a unique id and saving it untouched changes nothing. */
  lemma EditThenSave(p: Page, c: City, freshId: int)
    requires forall i :: 0 <= i < |p.items| && p.items[i].id == c.id ==> p.items[i] == c
    ensures Submit(Edit(p, c), freshId).items == p.items
  {
    Editor.EditThenSubmitUnchanged(p, c, IdOf, Merge, Build, Seed, freshId, Blank);
  }
}

=== FILE: community.dfy ===
/** The community page: an in-memory list of community links edited through
    the shared add/edit dialog, and the three lookups that turn a link's
    type into a label, a colour and an icon. */
module Community {
  import opened Wrappers
  import Editor
  import RecordList
  import Icons

  /** A community link. `kind` is the source's `type`; it comes from a select
      element, so at run time it is any string. */
  datatype Link = Link(id: int, name: string, kind: string, url: string, description: string,
                       memberCount: Option<string>)

  /** `Partial<CommunityLink>` without the id (see `Story.StoryForm`). */
  datatype LinkForm = LinkForm(name: Option<string>, kind: Option<string>, url: Option<string>,
                               description: Option<string>, memberCount: Option<string>)

  type Page = Editor.Editor<Link, LinkForm>

  const Blank: LinkForm := LinkForm(None, None, None, None, None)

  /** The link types the lookups recognise. */
  const KnownKinds: set<string> := {"chat", "facebook", "clan"}

  function IdOf(l: Link): int { l.id }

  /** `{ ...link, ...formData }`: present form keys replace, absent ones keep. */
  function Merge(l: Link, f: LinkForm): (r: Link)
    ensures r.id == l.id
    ensures r.name == f.name.GetOr(l.name) && r.kind == f.kind.GetOr(l.kind)
    ensures r.url == f.url.GetOr(l.url) && r.description == f.description.GetOr(l.description)
    ensures r.memberCount == if f.memberCount.Some? then f.memberCount else l.memberCount
  {
    Link(l.id, Overlay(l.name, f.name), Overlay(l.kind, f.kind), Overlay(l.url, f.url),
         Overlay(l.description, f.description), OverlayOption(l.memberCount, f.memberCount))
  }

  /** The link `handleSubmit` adds: a missing or empty type becomes "chat",
      missing or empty name, url and description become "", and the member
      count is passed through as it is, present or not. */
  function Build(id: int, f: LinkForm): (r: Link)
    ensures r.id == id && r.kind != ""
    ensures f.kind.None? || f.kind == Some("") ==> r.kind == "chat"
    ensures f.kind.Some? && f.kind.value != "" ==> r.kind == f.kind.value
    ensures r.name == f.name.GetOr("") && r.url == f.url.GetOr("") && r.description == f.description.GetOr("")
    ensures r.memberCount == f.memberCount
  {
    Link(id, OrElse(f.name, ""), OrElse(f.kind, "chat"), OrElse(f.url, ""), OrElse(f.description, ""),
         f.memberCount)
  }

  /** `setFormData(link)`: merging the seeded form over the link gives it
      back, and so it does over any link with the same id once the link has a
      member count; building from it reproduces the link unless its type is empty. */
  function Seed(l: Link): (r: LinkForm)
    ensures Merge(l, r) == l
    ensures l.memberCount.Some? ==> forall x: Link :: x.id == l.id ==> Merge(x, r) == l
    ensures l.kind != "" <==> Build(l.id, r) == l
  {
    LinkForm(Some(l.name), Some(l.kind), Some(l.url), Some(l.description), l.memberCount)
  }

  /** `handleSubmit`: update the edited link's key, or append a new link. */
  function Submit(p: Page, freshId: int): (r: Page)
    ensures r.editing == None && r.form == Blank && !r.dialogOpen
    ensures p.editing.Some? ==> |r.items| == |p.items|
    ensures p.editing.Some? ==> forall i :: 0 <= i < |p.items| ==>
              r.items[i] == if p.items[i].id == p.editing.value.id then Merge(p.items[i], p.form) else p.items[i]
    ensures p.editing.None? ==> |r.items| == |p.items| + 1 && r.items[..|p.items|] == p.items
    ensures p.editing.None? ==> r.items[|p.items|] == Build(freshId, p.form)
  {
    var r := Editor.Submit(p, IdOf, Merge, Build, freshId, Blank);
    assert p.editing.None? ==> r.items[..|p.items|] == p.items;
    r
  }

  /** `handleEdit`. */
  function Edit(p: Page, l: Link): (r: Page)
    ensures r.editing == Some(l) && r.dialogOpen && r.items == p.items
    ensures Merge(l, r.form) == l
  {
    Editor.BeginEdit(p, l, Seed)
  }

  /** `handleDelete`. */
  function Delete(p: Page, id: int): (r: Page)
    ensures forall i :: 0 <= i < |r.items| ==> r.items[i] in p.items && r.items[i].id != id
    ensures forall i :: 0 <= i < |p.items| && p.items[i].id != id ==> p.items[i] in r.items
    ensures RecordList.SubseqOf(r.items, p.items)
    ensures |r.items| + |RecordList.WithId(p.items, IdOf, id)| == |p.items|
    ensures r.editing == p.editing && r.form == p.form && r.dialogOpen == p.dialogOpen
  {
    Editor.Delete(p, IdOf, id)
  }

  /** `resetForm`, run by the header's add button. */
  function ResetForm(p: Page): (r: Page)
    ensures r.editing == None && r.form == Blank && r.items == p.items
  {
    Editor.ResetForm(p, Blank)
  }

  /** Adding then deleting a link under an id no link has restores the list. */
  lemma AddThenDelete(p: Page, freshId: int)
    requires p.editing.None?
    requires forall i :: 0 <= i < |p.items| ==> p.items[i].id != freshId
    ensures Delete(Submit(p, freshId), freshId).items == p.items
  {
    Editor.AddThenDeleteRestores(p, IdOf, Merge, Build, freshId, Blank);
  }

  /** Opening a link with a unique id and saving it untouched changes nothing. */
  lemma EditThenSave(p: Page, l: Link, freshId: int)
    requires forall i :: 0 <= i < |p.items| && p.items[i].id == l.id ==> p.items[i] == l
    ensures Submit(Edit(p, l), freshId).items == p.items
  {
    Editor.EditThenSubmitUnchanged(p, l, IdOf, Merge, Build, Seed, freshId, Blank);
  }

  /** `getTypeName`: a label for each known type, "Khác" for any other. */
  function TypeName(kind: string): (r: string)
    ensures r == "Khác" <==> kind !in KnownKinds
  {
    match kind
    case "chat" => "Nhóm Chat"
    case "facebook" => "Facebook"
    case "clan" => "Clan"
    case _ => "Khác"
  }

  /** `getTypeColor`: a colour for each known type, grey for any other. */
  function TypeColor(kind: string): (r: string)
    ensures r == "bg-gray-100 text-gray-800" <==> kind !in KnownKinds
  {
    match kind
    case "chat" => "bg-blue-100 text-blue-800"
    case "facebook" => "bg-indigo-100 text-indigo-800"
    case "clan" => "bg-purple-100 text-purple-800"
    case _ => "bg-gray-100 text-gray-800"
  }

  /** `getIcon`: facebook and clan have their own icons; chat and unknown
      types share the chat icon. */
  function TypeIcon(kind: string): (r: Icons.Icon)
    ensures r == Icons.MessageCircle <==> kind !in {"facebook", "clan"}
    ensures kind == "facebook" ==> r == Icons.Users
    ensures kind == "clan" ==> r == Icons.Shield
  {
    match kind
    case "chat" => Icons.MessageCircle
    case "facebook" => Icons.Users
    case "clan" => Icons.Shield
    case _ => Icons.MessageCircle
  }

  /** Distinct known types get distinct labels and colours, so the label
      and the colour each identify the type. */
  lemma LabelsIdentifyKinds(a: string, b: string)
    requires a in KnownKinds && b in KnownKinds
    requires TypeName(a) == TypeName(b) || TypeColor(a) == TypeColor(b)
    ensures a == b
  {
  }

  /** A link added with no type is shown as a chat group. */
  lemma DefaultKindIsChat(id: int, f: LinkForm)
    requires f.kind.None?
    ensures TypeName(Build(id, f).kind) == "Nhóm Chat"
    ensures TypeIcon(Build(id, f).kind) == Icons.MessageCircle
  {
  }
}

=== FILE: editor.dfy ===
/** The add/edit dialog every list page wraps around its record list: the
    list, the record being edited (null when adding), the partial form and
    whether the dialog is open. The record type `R`, the form type `F` and
    the key type `K` vary per page; each page supplies how a form is merged
    over a record (`merge`), how a new record is built from a form (`build`),
    how a form is seeded from a record (`seed`) and its blank form. */
module Editor {
  import opened Wrappers
  import RecordList

  datatype Editor<R, F> = Editor(items: seq<R>, editing: Option<R>, form: F, dialogOpen: bool)

  /** `handleEdit`: remember the record, copy it into the form, open the dialog. */
  function BeginEdit<R, F>(p: Editor<R, F>, rec: R, seed: R -> F): (r: Editor<R, F>)
    ensures r.editing == Some(rec) && r.form == seed(rec) && r.dialogOpen
    ensures r.items == p.items
  {
    p.(editing := Some(rec), form := seed(rec), dialogOpen := true)
  }

  /** `resetForm`: forget the edited record and clear the form; the list and
      the dialog are untouched. */
  function ResetForm<R, F>(p: Editor<R, F>, blank: F): (r: Editor<R, F>)
    ensures r.editing == None && r.form == blank
    ensures r.items == p.items && r.dialogOpen == p.dialogOpen
  {
    p.(editing := None, form := blank)
  }

  /** The header's add button: it resets the form and, being the dialog's
      trigger, opens the dialog in add mode. */
  function OpenForAdd<R, F>(p: Editor<R, F>, blank: F): (r: Editor<R, F>)
    ensures r.editing == None && r.form == blank && r.dialogOpen
    ensures r.items == p.items
  {
    ResetForm(p, blank).(dialogOpen := true)
  }

  /** The empty-list button, as written: it only opens the dialog, keeping
      whatever record and form an earlier, cancelled edit left behind. */
  function OpenDialog<R, F>(p: Editor<R, F>): (r: Editor<R, F>)
    ensures r.dialogOpen
    ensures r.items == p.items && r.editing == p.editing && r.form == p.form
  {
    p.(dialogOpen := true)
  }

  /** The cancel button and the dialog's own close control. */
  function CloseDialog<R, F>(p: Editor<R, F>): (r: Editor<R, F>)
    ensures !r.dialogOpen
    ensures r.items == p.items && r.editing == p.editing && r.form == p.form
  {
    p.(dialogOpen := false)
  }

  /** Typing into the form: `setFormData({ ...formData, key: value })`. */
  function SetForm<R, F>(p: Editor<R, F>, form: F): (r: Editor<R, F>)
    ensures r.form == form
    ensures r.items == p.items && r.editing == p.editing && r.dialogOpen == p.dialogOpen
  {
    p.(form := form)
  }

  /** `handleSubmit` on the pages that keep their list in memory only. With a
      record being edited, the form is merged over every record carrying its
      key and nothing else changes; otherwise one record built from the form
      under `freshId` is appended. Either way the form is cleared, the edited
      record forgotten and the dialog closed. */
  function Submit<R, F, K(==)>(p: Editor<R, F>, idOf: R -> K, merge: (R, F) -> R,
                              build: (K, F) -> R, freshId: K, blank: F): (r: Editor<R, F>)
    ensures r.editing == None && r.form == blank && !r.dialogOpen
    ensures p.editing.Some? ==> |r.items| == |p.items|
    ensures p.editing.Some? ==> forall i :: 0 <= i < |p.items| ==>
              r.items[i] == if idOf(p.items[i]) == idOf(p.editing.value) then merge(p.items[i], p.form) else p.items[i]
    ensures p.editing.None? ==> r.items == p.items + [build(freshId, p.form)]
  {
    var items :=
      if p.editing.Some? then RecordList.UpdateWhere(p.items, idOf, idOf(p.editing.value), x => merge(x, p.form))
      else p.items + [build(freshId, p.form)];
    Editor(items, None, blank, false)
  }

  /** `handleDelete` on the in-memory pages: drop every record with the key;
      the dialog state is untouched. */
  function Delete<R, F, K(==)>(p: Editor<R, F>, idOf: R -> K, key: K): (r: Editor<R, F>)
    ensures forall i :: 0 <= i < |r.items| ==> r.items[i] in p.items && idOf(r.items[i]) != key
    ensures forall i :: 0 <= i < |p.items| && idOf(p.items[i]) != key ==> p.items[i] in r.items
    ensures |r.items| + |RecordList.WithId(p.items, idOf, key)| == |p.items|
    ensures RecordList.SubseqOf(r.items, p.items)
    ensures r.editing == p.editing && r.form == p.form && r.dialogOpen == p.dialogOpen
  {
    p.(items := RecordList.RemoveWhere(p.items, idOf, key))
  }

  /** Opening an existing record and saving it without typing leaves the list
      as it was, provided the record is the only content under its key and
      merging a record's own seed over it gives it back. */
  lemma EditThenSubmitUnchanged<R, F, K>(p: Editor<R, F>, rec: R, idOf: R -> K, merge: (R, F) -> R,
                                         build: (K, F) -> R, seed: R -> F, freshId: K, blank: F)
    requires merge(rec, seed(rec)) == rec
    requires forall i :: 0 <= i < |p.items| && idOf(p.items[i]) == idOf(rec) ==> p.items[i] == rec
    ensures Submit(BeginEdit(p, rec, seed), idOf, merge, build, freshId, blank).items == p.items
  {
  }

  /** Adding a record under a fresh key and then deleting that key restores the list. */
  lemma AddThenDeleteRestores<R, F, K>(p: Editor<R, F>, idOf: R -> K, merge: (R, F) -> R,
                                       build: (K, F) -> R, freshId: K, blank: F)
    requires p.editing.None?
    requires idOf(build(freshId, p.form)) == freshId
    requires forall i :: 0 <= i < |p.items| ==> idOf(p.items[i]) != freshId
    ensures Delete(Submit(p, idOf, merge, build, freshId, blank), idOf, freshId).items == p.items
  {
    RecordList.RemoveUndoesAppend(p.items, build(freshId, p.form), idOf);
  }

  /** After the add button, whatever is typed, submitting appends exactly one
      record built from the typed form and keeps every earlier record. */
  lemma AddButtonAlwaysAdds<R, F, K>(p: Editor<R, F>, typed: F, idOf: R -> K, merge: (R, F) -> R,
                                     build: (K, F) -> R, freshId: K, blank: F)
    ensures Submit(SetForm(OpenForAdd(p, blank), typed), idOf, merge, build, freshId, blank).items
            == p.items + [build(freshId, typed)]
  {
  }

  /** The empty-list button, as written, loses the add: after an edit that was
      cancelled and a delete of the edited record, the dialog is still in edit
      mode for a key no record carries, and submitting changes nothing. */
  lemma StaleEditSwallowsAdd<R, F, K>(p: Editor<R, F>, typed: F, idOf: R -> K, merge: (R, F) -> R,
                                      build: (K, F) -> R, freshId: K, blank: F)
    requires p.editing.Some?
    requires forall i :: 0 <= i < |p.items| ==> idOf(p.items[i]) != idOf(p.editing.value)
    ensures Submit(SetForm(OpenDialog(p), typed), idOf, merge, build, freshId, blank).items == p.items
  {
  }
}

=== FILE: gallery.dfy ===
/** The gallery page: an in-memory image list shown through a category
    filter, an upload dialog, and a lightbox whose cursor indexes the
    filtered view. */
module Gallery {
  import opened Wrappers
  import RecordList

  /** The filter value that shows every image. */
  const All: string := "Tất Cả"

  /** The filter buttons, in display order; the first one is `All`. */
  const Categories: seq<string> :=
    [All, "Phong Cảnh", "Nhân Vật", "Kiến Trúc", "Chiến Đấu", "Sự Kiện", "Đời Sống"]

  datatype Image = Image(id: int, url: string, title: string, description: string, category: string)

  datatype UploadForm = UploadForm(url: string, title: string, description: string, category: string)

  /** The upload form on load and after each upload. */
  const BlankUpload: UploadForm := UploadForm("", "", "", "Phong Cảnh")

  datatype Gallery = Gallery(images: seq<Image>, selected: Option<nat>, dialogOpen: bool,
                             category: string, form: UploadForm)

  function IdOf(img: Image): int { img.id }

  /** The images of one category, in list order. */
  function OfCategory(images: seq<Image>, category: string): seq<Image>
  {
    RecordList.Keep(images, (img: Image) => img.category == category)
  }

  /** `filteredImages`: every image under `All`, otherwise exactly the images
      of the chosen category, in list order. */
  function Filtered(images: seq<Image>, category: string): (r: seq<Image>)
    ensures category == All ==> r == images
    ensures category != All ==> forall i :: 0 <= i < |r| ==> r[i] in images && r[i].category == category
    ensures category != All ==> forall i :: 0 <= i < |images| && images[i].category == category ==> images[i] in r
    ensures |r| <= |images|
  {
    if category == All then images else OfCategory(images, category)
  }

  /** The filtered view of a longer list extends the view of the shorter one:
      filtering keeps the images' relative order. */
  lemma FilteredConcat(a: seq<Image>, b: seq<Image>, category: string)
    ensures Filtered(a + b, category) == Filtered(a, category) + Filtered(b, category)
  {
    if category != All {
      RecordList.KeepConcat(a, b, (img: Image) => img.category == category);
    }
  }

  /** The categories the upload form offers: every filter except `All`. */
  function UploadChoices(): (r: seq<string>)
    ensures All !in r
    ensures forall c :: c in r <==> c in Categories && c != All
    ensures |r| == |Categories| - 1
  {
    Categories[1..]
  }

  /** `handleUpload`: append one image carrying the form's fields under
      `freshId`, reset the form, close the dialog. */
  function Upload(g: Gallery, freshId: int): (r: Gallery)
    ensures |r.images| == |g.images| + 1 && r.images[..|g.images|] == g.images
    ensures r.images[|g.images|] == Image(freshId, g.form.url, g.form.title, g.form.description, g.form.category)
    ensures r.form == BlankUpload && !r.dialogOpen
    ensures r.selected == g.selected && r.category == g.category
  {
    var img := Image(freshId, g.form.url, g.form.title, g.form.description, g.form.category);
    assert (g.images + [img])[..|g.images|] == g.images;
    g.(images := g.images + [img], form := BlankUpload, dialogOpen := false)
  }

  /** `handleDelete`: drop every image with the id and close the lightbox. */
  function Delete(g: Gallery, id: int): (r: Gallery)
    ensures forall i :: 0 <= i < |r.images| ==> r.images[i] in g.images && r.images[i].id != id
    ensures forall i :: 0 <= i < |g.images| && g.images[i].id != id ==> g.images[i] in r.images
    ensures RecordList.SubseqOf(r.images, g.images)
    ensures |r.images| + |RecordList.WithId(g.images, IdOf, id)| == |g.images|
    ensures r.selected == None
    ensures r.category == g.category && r.form == g.form && r.dialogOpen == g.dialogOpen
  {
    g.(images := RecordList.RemoveWhere(g.images, IdOf, id), selected := None)
  }

  /** `openLightbox`. */
  function Open(g: Gallery, index: nat): (r: Gallery)
    ensures r.selected == Some(index) && r.images == g.images && r.category == g.category
  {
    g.(selected := Some(index))
  }

  /** `closeLightbox`. */
  function Close(g: Gallery): (r: Gallery)
    ensures r.selected == None && r.images == g.images && r.category == g.category
  {
    g.(selected := None)
  }

  /** A category button; the lightbox cursor is left as it is. */
  function SelectCategory(g: Gallery, category: string): (r: Gallery)
    ensures r.category == category && r.selected == g.selected && r.images == g.images
  {
    g.(category := category)
  }

  /** `goToPrevious`: one image back, only from a selection above 0. */
  function Previous(g: Gallery): (r: Gallery)
    ensures g.selected.Some? && g.selected.value > 0 ==> r.selected == Some(g.selected.value - 1)
    ensures g.selected.None? || g.selected.value == 0 ==> r == g
    ensures r.images == g.images && r.category == g.category
  {
    if g.selected.Some? && g.selected.value > 0 then g.(selected := Some(g.selected.value - 1)) else g
  }

  /** `goToNext`: one image on, only while the selection is before the last
      image of the filtered view. */
  function Next(g: Gallery): (r: Gallery)
    ensures g.selected.Some? && g.selected.value + 1 < |Filtered(g.images, g.category)| ==>
              r.selected == Some(g.selected.value + 1)
    ensures g.selected.None? || g.selected.value + 1 >= |Filtered(g.images, g.category)| ==> r == g
    ensures r.images == g.images && r.category == g.category
  {
    if g.selected.Some? && g.selected.value < |Filtered(g.images, g.category)| - 1
    then g.(selected := Some(g.selected.value + 1))
    else g
  }

  /** No selection, or a selection inside the filtered view. */
  predicate CursorValid(g: Gallery)
  {
    g.selected.None? || g.selected.value < |Filtered(g.images, g.category)|
  }

  /** The cursor never leaves the filtered view: every lightbox and list
      handler keeps a valid cursor valid, and opening a shown image makes it
      valid. */
  lemma CursorStaysValid(g: Gallery, freshId: int, id: int, index: nat)
    requires CursorValid(g)
    ensures CursorValid(Previous(g)) && CursorValid(Next(g)) && CursorValid(Close(g))
    ensures CursorValid(Delete(g, id))
    ensures CursorValid(Upload(g, freshId))
    ensures index < |Filtered(g.images, g.category)| ==> CursorValid(Open(g, index))
  {
    var u := Upload(g, freshId);
    FilteredConcat(g.images, [u.images[|g.images|]], g.category);
    assert u.images == g.images + [u.images[|g.images|]];
  }

  /** Next then previous, and previous then next, return to the same image
      whenever the first move was taken. */
  lemma PreviousUndoesNext(g: Gallery)
    requires g.selected.Some? && g.selected.value + 1 < |Filtered(g.images, g.category)|
    ensures Previous(Next(g)) == g
  {
  }

  lemma NextUndoesPrevious(g: Gallery)
    requires CursorValid(g) && g.selected.Some? && g.selected.value > 0
    ensures Next(Previous(g)) == g
  {
  }

  /** Uploading an image under a fresh id and deleting that id gives back the
      image list. */
  lemma DeleteUndoesUpload(g: Gallery, freshId: int)
    requires forall i :: 0 <= i < |g.images| ==> g.images[i].id != freshId
    ensures Delete(Upload(g, freshId), freshId).images == g.images
  {
    var u := Upload(g, freshId);
    assert u.images == g.images + [u.images[|g.images|]];
    RecordList.RemoveUndoesAppend(g.images, u.images[|g.images|], IdOf);
  }
}

=== FILE: hau.dfy ===
/** The Hầu character page. Its list, dialog, submit and row toggle are the
    shared `Characters` handlers; only delete is its own. */
module Hau {
  import opened Wrappers
  import Characters

  /** `handleDelete(character)`: a character without an id (a missing or
      empty one) is ignored before any question is asked; otherwise nothing
      happens unless the operator confirms and the database call succeeds,
      and then exactly the characters with that id are removed. */
  function Delete(p: Characters.Page, c: Characters.Character, confirmed: bool,
                  outcome: Characters.Remote): (r: Characters.Page)
    ensures c.id.None? || c.id == Some("") ==> r == p
    ensures !confirmed || outcome.Failed? ==> r == p
    ensures c.id.Some? && c.id.value != "" && confirmed && outcome.Succeeded? ==>
              r == Characters.RemoveId(p, c.id.value)
    ensures forall i :: 0 <= i < |r.editor.items| ==> r.editor.items[i] in p.editor.items
    ensures r != p ==> c.id.Some? && forall i :: 0 <= i < |r.editor.items| ==> r.editor.items[i].id != c.id
  {
    if c.id.None? || c.id.value == "" then p
    else if !confirmed then p
    else if outcome.Failed? then p
    else Characters.RemoveId(p, c.id.value)
  }

  /** Deleting a stored character whose id no other character shares removes
      exactly that character: what remains is the list without it. */
  lemma DeleteRemovesOnlyThatCharacter(p: Characters.Page, c: Characters.Character)
    requires c.id.Some? && c.id.value != ""
    requires forall i :: 0 <= i < |p.editor.items| && p.editor.items[i].id == c.id ==> p.editor.items[i] == c
    ensures forall i :: 0 <= i < |p.editor.items| && p.editor.items[i] != c ==>
              p.editor.items[i] in Delete(p, c, true, Characters.Succeeded).editor.items
    ensures c !in Delete(p, c, true, Characters.Succeeded).editor.items
  {
  }
}

=== FILE: home.dfy ===
/** The home page's card slider: the index of the card on show, moved by the
    previous/next buttons, by a five-second timer and by the indicator dots.
    Card contents and the icon of each card are resolved through `Icons`. */
module Home {
  import opened Wrappers

  /** JavaScript `a % b` on numbers: the remainder takes the sign of `a`, and
      a zero divisor gives NaN, here `None`. */
  function JsRem(a: int, b: nat): (r: Option<int>)
    ensures r.None? <==> b == 0
    ensures r.Some? && a >= 0 ==> 0 <= r.value < b
    ensures r.Some? && 0 <= a < b ==> r.value == a
    ensures r.Some? && b <= a < 2 * b ==> r.value == a - b
  {
    if b == 0 then None
    else if a >= 0 then (ModOfSmall(a, b); Some(a % b))
    else Some(-((-a) % b))
  }

  /** The remainder of a dividend below twice the divisor. */
  lemma ModOfSmall(a: int, b: int)
    requires 0 <= a && 0 < b
    ensures 0 <= a % b < b
    ensures a < b ==> a % b == a
    ensures b <= a < 2 * b ==> a % b == a - b
  {
    if b <= a < 2 * b {
      assert a == b * 1 + (a - b);
    }
  }

  /** `nextSlide`: `(prev + 1) % slides.length`. With no slides the index
      becomes NaN; otherwise it moves one card on, wrapping to the first. */
  function NextSlide(cur: nat, n: nat): (r: Option<nat>)
    ensures r.None? <==> n == 0
    ensures r.Some? ==> r.value < n
    ensures r.Some? && cur + 1 < n ==> r.value == cur + 1
    ensures r.Some? && cur + 1 == n ==> r.value == 0
  {
    match JsRem(cur + 1, n)
    case None => None
    case Some(v) => Some(v)
  }

  /** `prevSlide`: `(prev - 1 + slides.length) % slides.length`. With no
      slides the index becomes NaN; otherwise it moves one card back, wrapping
      from the first card to the last. */
  function PrevSlide(cur: nat, n: nat): (r: Option<nat>)
    ensures r.None? <==> n == 0
    ensures r.Some? ==> r.value < n
    ensures r.Some? && cur == 0 ==> r.value == n - 1
    ensures r.Some? && 0 < cur <= n ==> r.value == cur - 1
  {
    match JsRem(cur - 1 + n, n)
    case None => None
    case Some(v) => assert v >= 0; Some(v)
  }

  /** Next undoes previous and previous undoes next on every valid index. */
  lemma NextPrevInverse(cur: nat, n: nat)
    requires cur < n
    ensures PrevSlide(cur, n).Some? && NextSlide(PrevSlide(cur, n).value, n) == Some(cur)
    ensures NextSlide(cur, n).Some? && PrevSlide(NextSlide(cur, n).value, n) == Some(cur)
  {
  }

  /** `k` presses of next (or `k` timer ticks) from a valid index. */
  function Advance(cur: nat, n: nat, k: nat): (r: nat)
    requires cur < n
    ensures r < n
    decreases k
  {
    if k == 0 then cur else NextSlide(Advance(cur, n, k - 1), n).value
  }

  /** Before the last card is passed, `k` steps move exactly `k` cards on. */
  lemma {:induction false} AdvanceNoWrap(cur: nat, n: nat, k: nat)
    requires cur + k < n
    ensures Advance(cur, n, k) == cur + k
    decreases k
  {
    if k > 0 {
      AdvanceNoWrap(cur, n, k - 1);
    }
  }

  /** Stepping `j` then `k` times is stepping `j + k` times. */
  lemma {:induction false} AdvanceCompose(cur: nat, n: nat, j: nat, k: nat)
    requires cur < n
    ensures Advance(Advance(cur, n, j), n, k) == Advance(cur, n, j + k)
    decreases k
  {
    if k > 0 {
      AdvanceCompose(cur, n, j, k - 1);
    }
  }

  /** A full round of `n` next steps returns to the starting card. */
  lemma FullRoundReturns(cur: nat, n: nat)
    requires cur < n
    ensures Advance(cur, n, n) == cur
  {
    var toLast := n - 1 - cur;
    AdvanceNoWrap(cur, n, toLast);
    assert Advance(cur, n, toLast + 1) == 0;
    AdvanceNoWrap(0, n, cur);
    AdvanceCompose(cur, n, toLast + 1, cur);
  }

  /** The slider: the card on show and how many cards there are. */
  datatype Slider = Slider(current: nat, count: nat)

  /** The inputs that move the slider. `Indicator(i)` is a dot's
      `setCurrentSlide(i)`; the hero section always draws three dots. */
  datatype Event = NextClick | PrevClick | Tick | Indicator(index: nat)

  /** A slider showing one of its cards. */
  predicate Valid(s: Slider)
  {
    s.current < s.count
  }

  /** One event; `None` when the index turns into NaN. */
  function Step(s: Slider, e: Event): (r: Option<Slider>)
    ensures r.Some? ==> r.value.count == s.count
    ensures r.None? <==> !e.Indicator? && s.count == 0
    ensures Valid(s) && e.Tick? ==> r == Some(s.(current := NextSlide(s.current, s.count).value))
    ensures Valid(s) && (e.Indicator? ==> e.index < s.count) ==> r.Some? && Valid(r.value)
  {
    match e
    case NextClick | Tick =>
      (match NextSlide(s.current, s.count)
       case None => None
       case Some(c) => Some(s.(current := c)))
    case PrevClick =>
      (match PrevSlide(s.current, s.count)
       case None => None
       case Some(c) => Some(s.(current := c)))
    case Indicator(i) => Some(s.(current := i))
  }

  /** The interval's tick is the same transition as the next button. */
  lemma TickIsNext(s: Slider)
    ensures Step(s, Tick) == Step(s, NextClick)
  {
  }
}

=== FILE: icons.dfy ===
/** The icon registry behind the card icon names stored by the settings page
    and shown by the home page, and the two ways the pages resolve a name:
    the home page indexes an object, the settings page searches its option
    list. Both fall back to `Users`. */
module Icons {
  import opened Wrappers

  datatype Icon = Users | MapPin | BookOpen | MessageCircle | Shield | Palette

  /** The registered name of each icon. */
  function NameOf(i: Icon): string
  {
    match i
    case Users => "Users"
    case MapPin => "MapPin"
    case BookOpen => "BookOpen"
    case MessageCircle => "MessageCircle"
    case Shield => "Shield"
    case Palette => "Palette"
  }

  /** The settings page's `iconOptions`, in display order. */
  const Options: seq<(string, Icon)> :=
    [("Users", Users), ("MapPin", MapPin), ("BookOpen", BookOpen),
     ("MessageCircle", MessageCircle), ("Shield", Shield), ("Palette", Palette)]

  /** The home page's `iconMap`. */
  const IconMap: map<string, Icon> :=
    map["Users" := Users, "MapPin" := MapPin, "BookOpen" := BookOpen,
        "MessageCircle" := MessageCircle, "Shield" := Shield, "Palette" := Palette]

  /** `options.find(o => o.value === name)`: the first option carrying the
      name, or nothing when no option does. */
  function Find(options: seq<(string, Icon)>, name: string): (r: Option<Icon>)
    ensures r.None? <==> forall j :: 0 <= j < |options| ==> options[j].0 != name
    ensures r.Some? ==> exists k :: 0 <= k < |options| && options[k] == (name, r.value)
                                    && forall j :: 0 <= j < k ==> options[j].0 != name
    decreases |options|
  {
    if options == [] then None
    else if options[0].0 == name then Some(options[0].1)
    else
      var rest := Find(options[1..], name);
      assert rest.Some? ==> exists k :: 1 <= k < |options| && options[k] == (name, rest.value)
                                        && forall j :: 0 <= j < k ==> options[j].0 != name by {
        if rest.Some? {
          var k :| 0 <= k < |options[1..]| && options[1..][k] == (name, rest.value)
                   && forall j :: 0 <= j < k ==> options[1..][j].0 != name;
          assert options[k + 1] == (name, rest.value);
          assert forall j :: 0 <= j < k + 1 ==> options[j].0 != name by {
            forall j | 0 <= j < k + 1
              ensures options[j].0 != name
            {
              if j > 0 {
                assert options[j] == options[1..][j - 1];
              }
            }
          }
        }
      }
      rest
  }

  /** The settings page's `getIconComponent`: the icon found carries the
      name; with no option carrying it, `Users`. */
  function SettingsIcon(name: string): (r: Icon)
    ensures r == Users || NameOf(r) == name
    ensures (forall i: Icon :: NameOf(i) != name) ==> r == Users
  {
    assert forall k :: 0 <= k < |Options| ==> Options[k].0 == NameOf(Options[k].1);
    Find(Options, name).GetOr(Users)
  }

  /** The home page's `getIconComponent`: `iconMap[name] || Users`. A name
      that is a key gets the icon registered under it; any other name `Users`. */
  function HomeIcon(name: string): (r: Icon)
    ensures name in IconMap ==> NameOf(r) == name
    ensures name !in IconMap ==> r == Users
    ensures (forall i: Icon :: NameOf(i) != name) ==> r == Users
  {
    if name in IconMap then IconMap[name] else Users
  }

  /** Every icon's registered name resolves to that icon on both pages. */
  lemma NameResolves(i: Icon)
    ensures HomeIcon(NameOf(i)) == i
    ensures SettingsIcon(NameOf(i)) == i
  {
    SettingsResolves(i);
  }

  /** The settings page finds each icon at its own position in the options. */
  lemma SettingsResolves(i: Icon)
    ensures SettingsIcon(NameOf(i)) == i
  {
    var k := match i
      case Users => 0 case MapPin => 1 case BookOpen => 2
      case MessageCircle => 3 case Shield => 4 case Palette => 5;
    assert Options[k] == (NameOf(i), i);
    FindFirst(Options, k, NameOf(i));
  }

  /** The option at `k` is what the lookup finds when no earlier option
      carries its name. */
  lemma FindFirst(options: seq<(string, Icon)>, k: nat, name: string)
    requires k < |options| && options[k].0 == name
    requires forall j :: 0 <= j < k ==> options[j].0 != name
    ensures Find(options, name) == Some(options[k].1)
  {
    var r := Find(options, name);
    var k' :| 0 <= k' < |options| && options[k'] == (name, r.value)
              && forall j :: 0 <= j < k' ==> options[j].0 != name;
    assert !(k' < k) && !(k < k');
  }

  /** A name outside the registry falls back to `Users` on both pages. */
  lemma UnknownNameIsUsers(name: string)
    requires forall i: Icon :: NameOf(i) != name
    ensures HomeIcon(name) == Users
    ensures SettingsIcon(name) == Users
  {
    assert NameOf(Users) != name && NameOf(MapPin) != name && NameOf(BookOpen) != name;
    assert NameOf(MessageCircle) != name && NameOf(Shield) != name && NameOf(Palette) != name;
  }

  /** The two pages resolve every string to the same icon. */
  lemma LookupsAgree(name: string)
    ensures HomeIcon(name) == SettingsIcon(name)
  {
    if i: Icon :| NameOf(i) == name {
      NameResolves(i);
    } else {
      UnknownNameIsUsers(name);
    }
  }
}

=== FILE: quests.dfy ===
/** The quest guide page: an in-memory quest list edited through a dialog
    whose form always holds every field, the difficulty and type badges, and
    the per-type counters above the list. */
module Quests {
  import opened Wrappers
  import Editor
  import RecordList

  /** "Dễ", "Trung Bình", "Khó", "Cực Khó", in the order the form offers them. */
  datatype Difficulty = Easy | Medium | Hard | Extreme

  /** "Chính Tuyến", "Phụ Tuyến", "Hàng Ngày", "Sự Kiện". */
  datatype QuestType = Main | Side | Daily | Event

  datatype Quest = Quest(id: int, name: string, description: string, difficulty: Difficulty,
                         reward: string, image: Option<string>, kind: QuestType)

  /** The quest form: every key is always present, the image as a string. */
  datatype QuestForm = QuestForm(name: string, description: string, difficulty: Difficulty,
                                 reward: string, image: string, kind: QuestType)

  type Page = Editor.Editor<Quest, QuestForm>

  /** The form after a submit and after the header's add button. */
  const Blank: QuestForm := QuestForm("", "", Easy, "", "", Main)

  const Difficulties: seq<Difficulty> := [Easy, Medium, Hard, Extreme]

  function IdOf(q: Quest): int { q.id }

  /** `{ id: Date.now(), ...formData }`: the new quest takes every form field. */
  function Build(id: int, f: QuestForm): (r: Quest)
    ensures r.id == id && r.image == Some(f.image)
    ensures r.name == f.name && r.description == f.description && r.reward == f.reward
    ensures r.difficulty == f.difficulty && r.kind == f.kind
  {
    Quest(id, f.name, f.description, f.difficulty, f.reward, Some(f.image), f.kind)
  }

  /** `{ ...quest, ...formData }`: the form holds every key, so an updated
      quest keeps only its id and is otherwise exactly the quest an add of the
      same form would build. */
  function Merge(q: Quest, f: QuestForm): (r: Quest)
    ensures r == Build(q.id, f)
  {
    q.(name := f.name, description := f.description, difficulty := f.difficulty,
       reward := f.reward, image := Some(f.image), kind := f.kind)
  }

  /** `handleEdit`'s form: every field copied, a missing image as "". Saving
      it back gives the quest with its image key filled in, which is the
      quest itself exactly when the quest had an image key. */
  function Seed(q: Quest): (r: QuestForm)
    ensures r.image == q.image.GetOr("")
    ensures Merge(q, r) == q.(image := Some(q.image.GetOr("")))
    ensures Merge(q, r) == q <==> q.image.Some?
  {
    QuestForm(q.name, q.description, q.difficulty, q.reward, OrElse(q.image, ""), q.kind)
  }

  /** `handleSubmit`: update the edited quest's key, or append a new quest;
      then the form returns to its defaults and the dialog closes. */
  function Submit(p: Page, freshId: int): (r: Page)
    ensures r.editing == None && r.form == Blank && !r.dialogOpen
    ensures p.editing.Some? ==> |r.items| == |p.items|
    ensures p.editing.Some? ==> forall i :: 0 <= i < |p.items| ==>
              r.items[i] == if p.items[i].id == p.editing.value.id then Build(p.items[i].id, p.form) else p.items[i]
    ensures p.editing.None? ==> r.items == p.items + [Build(freshId, p.form)]
  {
    Editor.Submit(p, IdOf, Merge, Build, freshId, Blank)
  }

  /** `handleEdit`. */
  function Edit(p: Page, q: Quest): (r: Page)
    ensures r.editing == Some(q) && r.dialogOpen && r.items == p.items
    ensures r.form.image == q.image.GetOr("")
    ensures Merge(q, r.form) == q.(image := Some(q.image.GetOr("")))
  {
    Editor.BeginEdit(p, q, Seed)
  }

  /** The header's add button: clears the edited quest and restores the form
      defaults before the dialog opens. */
  function OpenForAdd(p: Page): (r: Page)
    ensures r.editing == None && r.form == Blank && r.dialogOpen && r.items == p.items
  {
    Editor.OpenForAdd(p, Blank)
  }

  /** `handleDelete`. */
  function Delete(p: Page, id: int): (r: Page)
    ensures forall i :: 0 <= i < |r.items| ==> r.items[i] in p.items && r.items[i].id != id
    ensures forall i :: 0 <= i < |p.items| && p.items[i].id != id ==> p.items[i] in r.items
    ensures RecordList.SubseqOf(r.items, p.items)
    ensures |r.items| + |RecordList.WithId(p.items, IdOf, id)| == |p.items|
    ensures r.editing == p.editing && r.form == p.form && r.dialogOpen == p.dialogOpen
  {
    Editor.Delete(p, IdOf, id)
  }

  /** Adding then deleting a quest under an id no quest has restores the list. */
  lemma AddThenDelete(p: Page, freshId: int)
    requires p.editing.None?
    requires forall i :: 0 <= i < |p.items| ==> p.items[i].id != freshId
    ensures Delete(Submit(p, freshId), freshId).items == p.items
  {
    Editor.AddThenDeleteRestores(p, IdOf, Merge, Build, freshId, Blank);
  }

  /** `getDifficultyStars`. */
  function DifficultyStars(d: Difficulty): (r: nat)
    ensures 1 <= r <= 4
  {
    match d
    case Easy => 1
    case Medium => 2
    case Hard => 3
    case Extreme => 4
  }

  /** The star count grows strictly with the difficulty order and uses every
      value from 1 to 4. */
  lemma StarsFollowDifficultyOrder()
    ensures forall i, j :: 0 <= i < j < |Difficulties| ==>
              DifficultyStars(Difficulties[i]) < DifficultyStars(Difficulties[j])
    ensures forall i :: 0 <= i < |Difficulties| ==> DifficultyStars(Difficulties[i]) == i + 1
  {
  }

  /** A badge class: a light background and dark text of one hue. */
  function Badge(hue: string): string
  {
    "bg-" + hue + "-100 text-" + hue + "-800"
  }

  /** The hue can be read back from the badge, so different hues give
      different badges. */
  lemma BadgeInjective(h1: string, h2: string)
    requires Badge(h1) == Badge(h2)
    ensures h1 == h2
  {
    assert |Badge(h1)| == 2 * |h1| + 17;
    assert |Badge(h2)| == 2 * |h2| + 17;
    assert Badge(h1)[3..3 + |h1|] == h1;
    assert Badge(h2)[3..3 + |h2|] == h2;
  }

  /** `getDifficultyColor`: a badge of one hue per difficulty. */
  function DifficultyColor(d: Difficulty): (r: string)
    ensures exists hue :: r == Badge(hue)
  {
    match d
    case Easy => Badge("green")
    case Medium => Badge("yellow")
    case Hard => Badge("orange")
    case Extreme => Badge("red")
  }

  /** `getTypeColor`: a badge of one hue per type. */
  function TypeColor(t: QuestType): (r: string)
    ensures exists hue :: r == Badge(hue)
  {
    match t
    case Main => Badge("purple")
    case Side => Badge("blue")
    case Daily => Badge("green")
    case Event => Badge("pink")
  }

  /** Each difficulty and each type has a badge colour of its own. */
  lemma BadgeColorsDistinct(a: Difficulty, b: Difficulty, s: QuestType, t: QuestType)
    ensures DifficultyColor(a) == DifficultyColor(b) ==> a == b
    ensures TypeColor(s) == TypeColor(t) ==> s == t
  {
    forall h1, h2 | Badge(h1) == Badge(h2)
      ensures h1 == h2
    {
      BadgeInjective(h1, h2);
    }
  }

  /** `quests.filter(q => q.type === t).length`. */
  function CountOfType(qs: seq<Quest>, t: QuestType): (r: nat)
    ensures r <= |qs|
    ensures (forall i :: 0 <= i < |qs| ==> qs[i].kind == t) ==> r == |qs|
    ensures (forall i :: 0 <= i < |qs| ==> qs[i].kind != t) ==> r == 0
    ensures (exists i :: 0 <= i < |qs| && qs[i].kind == t) ==> r > 0
  {
    var p := (q: Quest) => q.kind == t;
    var kept := RecordList.Keep(qs, p);
    if forall i :: 0 <= i < |qs| ==> qs[i].kind == t then
      RecordList.KeepAll(qs, p);
      |kept|
    else
      assert |kept| > 0 ==> kept[0] in qs;
      |kept|
  }

  /** One more quest in front adds one to its own type's count only. */
  lemma CountOfTypeCons(qs: seq<Quest>, t: QuestType)
    requires qs != []
    ensures CountOfType(qs, t) == (if qs[0].kind == t then 1 else 0) + CountOfType(qs[1..], t)
  {
  }

  /** Every quest has exactly one type: the four counts add up to the total. */
  lemma {:induction false} TypeCountsPartition(qs: seq<Quest>)
    ensures CountOfType(qs, Main) + CountOfType(qs, Side) + CountOfType(qs, Daily) + CountOfType(qs, Event) == |qs|
    decreases |qs|
  {
    if qs != [] {
      CountOfTypeCons(qs, Main);
      CountOfTypeCons(qs, Side);
      CountOfTypeCons(qs, Daily);
      CountOfTypeCons(qs, Event);
      TypeCountsPartition(qs[1..]);
    }
  }

  /** The four counters above the list: the total and the main, side and
      daily counts. Each count is the number of quests of that type; together
      they never exceed the total, which they miss by exactly the event quests. */
  function Stats(qs: seq<Quest>): (r: (nat, nat, nat, nat))
    ensures r.0 == |qs|
    ensures r.1 == CountOfType(qs, Main) && r.2 == CountOfType(qs, Side) && r.3 == CountOfType(qs, Daily)
    ensures r.1 + r.2 + r.3 + CountOfType(qs, Event) == r.0
    ensures r.1 <= r.0 && r.2 <= r.0 && r.3 <= r.0
  {
    TypeCountsPartition(qs);
    (|qs|, CountOfType(qs, Main), CountOfType(qs, Side), CountOfType(qs, Daily))
  }
}

=== FILE: record_list.dfy ===
/** The keyed record list every page keeps in memory, and the three array
    idioms its handlers use on it: `filter` (delete, category views, counts),
    `map` with an id test (update) and a Set toggle (expanded rows).
    Records are generic; `idOf` reads a record's key. */
module RecordList {

  /** `r` is `xs` with some records left out and the rest kept in their order. */
  ghost predicate SubseqOf<R>(r: seq<R>, xs: seq<R>)
    decreases |xs|
  {
    || r == []
    || (xs != [] && ((r[0] == xs[0] && SubseqOf(r[1..], xs[1..])) || SubseqOf(r, xs[1..])))
  }

  /** `xs.filter(p)`: the records satisfying `p`, in their original order. */
  function Keep<R>(xs: seq<R>, p: R -> bool): (r: seq<R>)
    ensures |r| <= |xs|
    ensures forall i :: 0 <= i < |r| ==> r[i] in xs && p(r[i])
    ensures forall i :: 0 <= i < |xs| && p(xs[i]) ==> xs[i] in r
    decreases |xs|
  {
    if xs == [] then []
    else (if p(xs[0]) then [xs[0]] else []) + Keep(xs[1..], p)
  }

  /** The filter keeps its records in their order. */
  lemma {:induction false} KeepSubseq<R>(xs: seq<R>, p: R -> bool)
    ensures SubseqOf(Keep(xs, p), xs)
    decreases |xs|
  {
    if xs != [] {
      KeepSubseq(xs[1..], p);
      var k := Keep(xs, p);
      if p(xs[0]) {
        assert k[0] == xs[0] && k[1..] == Keep(xs[1..], p);
      } else {
        assert k == Keep(xs[1..], p);
      }
    }
  }

  /** A list of passing records taken from `xs` in order is no longer than
      the filter. */
  lemma {:induction false} SubseqBound<R>(r: seq<R>, xs: seq<R>, p: R -> bool)
    requires SubseqOf(r, xs)
    requires forall i :: 0 <= i < |r| ==> p(r[i])
    ensures |r| <= |Keep(xs, p)|
    decreases |xs|
  {
    if r != [] {
      var k := Keep(xs, p);
      assert |k| == (if p(xs[0]) then 1 else 0) + |Keep(xs[1..], p)|;
      if r[0] == xs[0] && SubseqOf(r[1..], xs[1..]) {
        SubseqBound(r[1..], xs[1..], p);
      } else {
        SubseqBound(r, xs[1..], p);
      }
    }
  }

  /** The filter is the only list of passing records taken from `xs` in
      order that is as long as the filter. */
  lemma {:induction false} KeepExact<R>(r: seq<R>, xs: seq<R>, p: R -> bool)
    requires SubseqOf(r, xs)
    requires forall i :: 0 <= i < |r| ==> p(r[i])
    requires |r| == |Keep(xs, p)|
    ensures r == Keep(xs, p)
    decreases |xs|
  {
    if xs != [] && r != [] {
      var k := Keep(xs, p);
      assert |k| == (if p(xs[0]) then 1 else 0) + |Keep(xs[1..], p)|;
      if r[0] == xs[0] && SubseqOf(r[1..], xs[1..]) {
        assert k == [xs[0]] + Keep(xs[1..], p);
        KeepExact(r[1..], xs[1..], p);
        assert r == [r[0]] + r[1..];
      } else {
        SubseqBound(r, xs[1..], p);
        assert k == Keep(xs[1..], p);
        KeepExact(r, xs[1..], p);
      }
    }
  }

  /** Filtering distributes over concatenation: records keep their relative order. */
  lemma {:induction false} KeepConcat<R>(a: seq<R>, b: seq<R>, p: R -> bool)
    ensures Keep(a + b, p) == Keep(a, p) + Keep(b, p)
    decreases |a|
  {
    if a == [] {
      assert a + b == b;
    } else {
      assert (a + b)[0] == a[0];
      assert (a + b)[1..] == a[1..] + b;
      KeepConcat(a[1..], b, p);
    }
  }

  /** A filter that every record passes returns the list itself. */
  lemma {:induction false} KeepAll<R>(xs: seq<R>, p: R -> bool)
    requires forall i :: 0 <= i < |xs| ==> p(xs[i])
    ensures Keep(xs, p) == xs
    decreases |xs|
  {
    if xs != [] {
      KeepAll(xs[1..], p);
    }
  }

  /** A record failing the filter contributes nothing, one passing it contributes itself. */
  lemma KeepSingleton<R>(x: R, p: R -> bool)
    ensures Keep([x], p) == if p(x) then [x] else []
  {
    assert [x][1..] == [];
  }

  /** The records whose key is `key`. */
  function WithId<R, K(==)>(xs: seq<R>, idOf: R -> K, key: K): seq<R>
  {
    Keep(xs, x => idOf(x) == key)
  }

  /** `xs.filter(x => x.id !== key)`: the delete handlers. */
  function RemoveWhere<R, K(==)>(xs: seq<R>, idOf: R -> K, key: K): (r: seq<R>)
    ensures forall i :: 0 <= i < |r| ==> r[i] in xs && idOf(r[i]) != key
    ensures forall i :: 0 <= i < |xs| && idOf(xs[i]) != key ==> xs[i] in r
    ensures |r| + |WithId(xs, idOf, key)| == |xs|
    ensures SubseqOf(r, xs)
  {
    KeepComplement(xs, idOf, key);
    KeepSubseq(xs, x => idOf(x) != key);
    Keep(xs, x => idOf(x) != key)
  }

  /** The delete contract determines the result: a list that keeps records
      of `xs` in order, holds no record with the key and is as long as the
      records without it is `RemoveWhere(xs, idOf, key)`. */
  lemma RemoveWhereExact<R, K>(xs: seq<R>, idOf: R -> K, key: K, r: seq<R>)
    requires SubseqOf(r, xs)
    requires forall i :: 0 <= i < |r| ==> idOf(r[i]) != key
    requires |r| + |WithId(xs, idOf, key)| == |xs|
    ensures r == RemoveWhere(xs, idOf, key)
  {
    KeepComplement(xs, idOf, key);
    KeepExact(r, xs, x => idOf(x) != key);
  }

  /** Deleting from a concatenation deletes from each part. */
  lemma RemoveConcat<R, K>(a: seq<R>, b: seq<R>, idOf: R -> K, key: K)
    ensures RemoveWhere(a + b, idOf, key) == RemoveWhere(a, idOf, key) + RemoveWhere(b, idOf, key)
  {
    KeepConcat(a, b, x => idOf(x) != key);
  }

  /** Every record either has the key or does not: the two filters split the list. */
  lemma {:induction false} KeepComplement<R, K>(xs: seq<R>, idOf: R -> K, key: K)
    ensures |Keep(xs, x => idOf(x) != key)| + |Keep(xs, x => idOf(x) == key)| == |xs|
    decreases |xs|
  {
    if xs != [] {
      KeepComplement(xs[1..], idOf, key);
    }
  }

  /** Deleting a key twice is deleting it once. */
  lemma RemoveIdempotent<R, K>(xs: seq<R>, idOf: R -> K, key: K)
    ensures RemoveWhere(RemoveWhere(xs, idOf, key), idOf, key) == RemoveWhere(xs, idOf, key)
  {
    var once := RemoveWhere(xs, idOf, key);
    KeepAll(once, x => idOf(x) != key);
  }

  /** Appending a record under a key no other record carries, then deleting
      that key, gives back the original list. */
  lemma RemoveUndoesAppend<R, K>(xs: seq<R>, x: R, idOf: R -> K)
    requires forall i :: 0 <= i < |xs| ==> idOf(xs[i]) != idOf(x)
    ensures RemoveWhere(xs + [x], idOf, idOf(x)) == xs
  {
    var p := y => idOf(y) != idOf(x);
    KeepConcat(xs, [x], p);
    KeepAll(xs, p);
    KeepSingleton(x, p);
  }

  /** Prepending a record under a fresh key, then deleting that key, gives
      back the original list. */
  lemma RemoveUndoesPrepend<R, K>(xs: seq<R>, x: R, idOf: R -> K)
    requires forall i :: 0 <= i < |xs| ==> idOf(xs[i]) != idOf(x)
    ensures RemoveWhere([x] + xs, idOf, idOf(x)) == xs
  {
    var p := y => idOf(y) != idOf(x);
    KeepConcat([x], xs, p);
    KeepAll(xs, p);
    KeepSingleton(x, p);
  }

  /** `xs.map(x => x.id === key ? f(x) : x)`: the update handlers. Only the
      records carrying the key are rewritten; every other one is left as is. */
  function UpdateWhere<R, K(==)>(xs: seq<R>, idOf: R -> K, key: K, f: R -> R): (r: seq<R>)
    ensures |r| == |xs|
    ensures forall i :: 0 <= i < |xs| && idOf(xs[i]) == key ==> r[i] == f(xs[i])
    ensures forall i :: 0 <= i < |xs| && idOf(xs[i]) != key ==> r[i] == xs[i]
    decreases |xs|
  {
    if xs == [] then []
    else [if idOf(xs[0]) == key then f(xs[0]) else xs[0]] + UpdateWhere(xs[1..], idOf, key, f)
  }

  /** An update that keeps keys is invisible once its key is deleted: no
      record outside the key was touched. */
  lemma {:induction false} RemoveAfterUpdate<R, K>(xs: seq<R>, idOf: R -> K, key: K, f: R -> R)
    requires forall x :: idOf(f(x)) == idOf(x)
    ensures RemoveWhere(UpdateWhere(xs, idOf, key, f), idOf, key) == RemoveWhere(xs, idOf, key)
    decreases |xs|
  {
    if xs != [] {
      var u := UpdateWhere(xs, idOf, key, f);
      assert u[1..] == UpdateWhere(xs[1..], idOf, key, f);
      RemoveAfterUpdate(xs[1..], idOf, key, f);
    }
  }

  /** Repeating an update whose rewrite is idempotent and keeps keys changes nothing more. */
  lemma UpdateIdempotent<R, K>(xs: seq<R>, idOf: R -> K, key: K, f: R -> R)
    requires forall x :: idOf(f(x)) == idOf(x)
    requires forall x :: f(f(x)) == f(x)
    ensures UpdateWhere(UpdateWhere(xs, idOf, key, f), idOf, key, f) == UpdateWhere(xs, idOf, key, f)
  {
  }

  /** The expanded-rows toggle: the id's membership flips and nothing else changes. */
  function Toggle<K(!new)>(s: set<K>, k: K): (r: set<K>)
    ensures k in r <==> k !in s
    ensures forall j :: j != k ==> (j in r <==> j in s)
  {
    if k in s then s - {k} else s + {k}
  }

  /** Toggling the same row twice restores the expanded set. */
  lemma ToggleInvolution<K(!new)>(s: set<K>, k: K)
    ensures Toggle(Toggle(s, k), k) == s
  {
  }
}

=== FILE: settings.dfy ===
/** The home-page settings editor: the three home cards, the logo, the theme
    colours and the `hasChanges` flag that enables the save button. Writing
    to browser storage and to CSS variables on save, and reading the logo
    file, are outside the model; their effect on the editor state is not. */
module Settings {
  import opened Wrappers
  import RecordList

  datatype Card = Card(id: string, title: string, description: string, icon: string,
                       gradient: string, iconColor: string, href: string)

  /** `keyof HomePageCard`. */
  datatype CardField = Id | Title | Description | IconName | Gradient | IconColor | Href

  datatype Logo = Logo(text: string, subtext: string, image: string, useImage: bool)

  datatype Theme = Theme(primary: string, secondary: string, accent: string)

  datatype Preset = Preset(name: string, primary: string, secondary: string, accent: string)

  /** The three colour inputs of the theme section. */
  datatype ThemeSlot = Primary | Secondary | Accent

  datatype Settings = Settings(cards: seq<Card>, logo: Logo, theme: Theme, hasChanges: bool)

  const DefaultCards: seq<Card> := [
    Card("characters", "Danh Sách Nhân Vật", "Khám phá các nhân vật với ba hệ Thiên, Hầu, Sĩ",
         "Users", "from-blue-100 to-indigo-100", "text-blue-600", "/characters"),
    Card("cities", "Danh Sách Thành Phố", "Tham quan các thành phố cổ kính trong game",
         "MapPin", "from-green-100 to-emerald-100", "text-green-600", "/cities"),
    Card("story", "Cốt Truyện", "Đọc câu chuyện hấp dẫn của từng nhân vật",
         "BookOpen", "from-purple-100 to-pink-100", "text-purple-600", "/story")
  ]

  const DefaultLogo: Logo := Logo("江南百景圖", "Giang Nam Bách Cảnh Đồ", "", false)

  const DefaultTheme: Theme := Theme("#1f2937", "#3b82f6", "#10b981")

  /** `predefinedThemes`, in display order. */
  const Presets: seq<Preset> := [
    Preset("Mặc Định", "#1f2937", "#3b82f6", "#10b981"),
    Preset("Cổ Điển", "#92400e", "#d97706", "#f59e0b"),
    Preset("Thanh Lịch", "#1e40af", "#3b82f6", "#60a5fa"),
    Preset("Tự Nhiên", "#166534", "#16a34a", "#22c55e"),
    Preset("Hoàng Gia", "#7c2d12", "#dc2626", "#ef4444"),
    Preset("Huyền Bí", "#581c87", "#9333ea", "#a855f7")
  ]

  /** The state the page mounts with: the defaults, nothing to save. */
  function Initial(): Settings
  {
    Settings(DefaultCards, DefaultLogo, DefaultTheme, false)
  }

  function CardId(c: Card): string { c.id }

  /** `card[field]`. */
  function GetField(c: Card, f: CardField): string
  {
    match f
    case Id => c.id
    case Title => c.title
    case Description => c.description
    case IconName => c.icon
    case Gradient => c.gradient
    case IconColor => c.iconColor
    case Href => c.href
  }

  /** `{ ...card, [field]: value }`: the field reads back as the value and
      every other field reads as before. */
  function SetField(c: Card, f: CardField, v: string): (r: Card)
    ensures GetField(r, f) == v
    ensures forall g :: g != f ==> GetField(r, g) == GetField(c, g)
  {
    match f
    case Id => c.(id := v)
    case Title => c.(title := v)
    case Description => c.(description := v)
    case IconName => c.(icon := v)
    case Gradient => c.(gradient := v)
    case IconColor => c.(iconColor := v)
    case Href => c.(href := v)
  }

  /** `updateCard(id, field, value)`: on every card with the id the field
      becomes the value and the other fields stay; every other card, the
      logo and the theme stay; the editor now has changes. */
  function UpdateCard(s: Settings, id: string, f: CardField, v: string): (r: Settings)
    ensures |r.cards| == |s.cards|
    ensures forall i :: 0 <= i < |s.cards| && s.cards[i].id == id ==>
              GetField(r.cards[i], f) == v &&
              forall g :: g != f ==> GetField(r.cards[i], g) == GetField(s.cards[i], g)
    ensures forall i :: 0 <= i < |s.cards| && s.cards[i].id != id ==> r.cards[i] == s.cards[i]
    ensures r.logo == s.logo && r.theme == s.theme && r.hasChanges
  {
    s.(cards := RecordList.UpdateWhere(s.cards, CardId, id, c => SetField(c, f, v)), hasChanges := true)
  }

  /** A successful logo file read: the data URL becomes the logo image and
      the image logo is switched on. Choosing no file changes nothing. */
  function LogoFileChosen(s: Settings, dataUrl: Option<string>): (r: Settings)
    ensures dataUrl.None? ==> r == s
    ensures dataUrl.Some? ==> r.logo.image == dataUrl.value && r.logo.useImage && r.hasChanges
    ensures r.logo.text == s.logo.text && r.logo.subtext == s.logo.subtext
    ensures r.cards == s.cards && r.theme == s.theme
  {
    match dataUrl
    case None => s
    case Some(url) => s.(logo := s.logo.(image := url, useImage := true), hasChanges := true)
  }

  /** `removeLogoImage`: no image, icon logo, text untouched. */
  function RemoveLogoImage(s: Settings): (r: Settings)
    ensures r.logo.image == "" && !r.logo.useImage && r.hasChanges
    ensures r.logo.text == s.logo.text && r.logo.subtext == s.logo.subtext
    ensures r.cards == s.cards && r.theme == s.theme
  {
    s.(logo := s.logo.(image := "", useImage := false), hasChanges := true)
  }

  /** The logo text inputs. */
  function SetLogoText(s: Settings, text: string, subtext: bool): (r: Settings)
    ensures (if subtext then r.logo.subtext else r.logo.text) == text
    ensures (if subtext then r.logo.text == s.logo.text else r.logo.subtext == s.logo.subtext)
    ensures r.logo.image == s.logo.image && r.logo.useImage == s.logo.useImage && r.hasChanges
    ensures r.cards == s.cards && r.theme == s.theme
  {
    var logo := if subtext then s.logo.(subtext := text) else s.logo.(text := text);
    s.(logo := logo, hasChanges := true)
  }

  /** `applyTheme`: exactly the preset's three colours. */
  function ApplyTheme(s: Settings, p: Preset): (r: Settings)
    ensures r.theme.primary == p.primary && r.theme.secondary == p.secondary && r.theme.accent == p.accent
    ensures r.cards == s.cards && r.logo == s.logo && r.hasChanges
  {
    s.(theme := Theme(p.primary, p.secondary, p.accent), hasChanges := true)
  }

  /** A colour picker or hex input: one colour changes, the other two stay. */
  function SetThemeColor(s: Settings, slot: ThemeSlot, color: string): (r: Settings)
    ensures slot == Primary ==> r.theme == s.theme.(primary := color)
    ensures slot == Secondary ==> r.theme == s.theme.(secondary := color)
    ensures slot == Accent ==> r.theme == s.theme.(accent := color)
    ensures r.cards == s.cards && r.logo == s.logo && r.hasChanges
  {
    var t := match slot
      case Primary => s.theme.(primary := color)
      case Secondary => s.theme.(secondary := color)
      case Accent => s.theme.(accent := color);
    s.(theme := t, hasChanges := true)
  }

  /** The save button is enabled only while there are changes. */
  predicate SaveEnabled(s: Settings)
  {
    s.hasChanges
  }

  /** `handleSave`: the editor keeps its content and has nothing left to save. */
  function Save(s: Settings): (r: Settings)
    ensures !r.hasChanges && !SaveEnabled(r)
    ensures r.cards == s.cards && r.logo == s.logo && r.theme == s.theme
  {
    s.(hasChanges := false)
  }

  /** `handleReset`: cards, logo and theme return to the values the page
      mounts with, and the flag is set so the defaults can be saved. */
  function Reset(s: Settings): (r: Settings)
    ensures r.cards == Initial().cards && r.logo == Initial().logo && r.theme == Initial().theme
    ensures r.hasChanges && r != Initial()
  {
    Initial().(hasChanges := true)
  }

  /** Every input the editor reacts to. */
  datatype Event =
    | EditCard(id: string, field: CardField, value: string)
    | LogoFile(dataUrl: Option<string>)
    | RemoveLogo
    | EditLogoText(text: string, subtext: bool)
    | PickPreset(preset: Preset)
    | EditColor(slot: ThemeSlot, color: string)
    | SaveClick
    | ResetClick

  /** Each input touches only its own section: the cards change only by a
      card edit or reset, the logo only by the logo inputs or reset, the theme
      only by a preset, a colour input or reset; save changes only the flag. */
  function Step(s: Settings, e: Event): (r: Settings)
    ensures !(e.EditCard? || e.ResetClick?) ==> r.cards == s.cards
    ensures !(e.LogoFile? || e.RemoveLogo? || e.EditLogoText? || e.ResetClick?) ==> r.logo == s.logo
    ensures !(e.PickPreset? || e.EditColor? || e.ResetClick?) ==> r.theme == s.theme
    ensures e.SaveClick? ==> r == s.(hasChanges := false)
  {
    match e
    case EditCard(id, f, v) => UpdateCard(s, id, f, v)
    case LogoFile(url) => LogoFileChosen(s, url)
    case RemoveLogo => RemoveLogoImage(s)
    case EditLogoText(text, sub) => SetLogoText(s, text, sub)
    case PickPreset(p) => ApplyTheme(s, p)
    case EditColor(slot, color) => SetThemeColor(s, slot, color)
    case SaveClick => Save(s)
    case ResetClick => Reset(s)
  }

  /** The dirty flag: save clears it, choosing no logo file leaves it, and
      every other input (reset included) sets it, so save is enabled after
      any edit and disabled right after saving. */
  lemma DirtyFlag(s: Settings, e: Event)
    ensures Step(s, e).hasChanges == if e.SaveClick? then false
                                     else if e == LogoFile(None) then s.hasChanges
                                     else true
  {
  }

  /** Reset followed by save is the state the page mounts with. */
  lemma ResetThenSaveIsInitial(s: Settings)
    ensures Save(Reset(s)) == Initial()
  {
  }

  /** The default theme is the first preset, "Mặc Định". */
  lemma DefaultThemeIsFirstPreset()
    ensures ApplyTheme(Initial(), Presets[0]).theme == Initial().theme
  {
  }

  /** Only the last preset picked matters. */
  lemma LastPresetWins(s: Settings, a: Preset, b: Preset)
    ensures ApplyTheme(ApplyTheme(s, a), b) == ApplyTheme(s, b)
  {
  }

  /** Removing the logo image undoes loading one. */
  lemma RemoveUndoesLoad(s: Settings, url: string)
    ensures RemoveLogoImage(LogoFileChosen(s, Some(url))) == RemoveLogoImage(s)
  {
  }

  /** An edit of any field but the id keeps every card's id, so later
      updates still find the same cards. */
  lemma UpdateKeepsIds(s: Settings, id: string, f: CardField, v: string)
    requires f != Id
    ensures forall i :: 0 <= i < |s.cards| ==> UpdateCard(s, id, f, v).cards[i].id == s.cards[i].id
  {
    var r := UpdateCard(s, id, f, v);
    forall i | 0 <= i < |s.cards|
      ensures r.cards[i].id == s.cards[i].id
    {
      assert GetField(r.cards[i], Id) == GetField(s.cards[i], Id);
    }
  }
}

=== FILE: story.dfy ===
/** The story page: an in-memory list of character stories edited through
    the shared add/edit dialog. */
module Story {
  import opened Wrappers
  import Editor
  import RecordList

  datatype Story = Story(id: int, name: string, image: string, story: string)

  /** `Partial<Character>`: a missing key is `None`. The seeded form also
      carries the record's id, which always equals the edited record's id and
      so never changes a merged record; it is left out of the form. */
  datatype StoryForm = StoryForm(name: Option<string>, image: Option<string>, story: Option<string>)

  type Page = Editor.Editor<Story, StoryForm>

  /** Image given to a story added without one. */
  const Placeholder: string := "/placeholder.svg?height=200&width=150"

  const Blank: StoryForm := StoryForm(None, None, None)

  function IdOf(s: Story): int { s.id }

  /** `{ ...char, ...formData }`: present form keys replace, absent ones keep. */
  function Merge(s: Story, f: StoryForm): (r: Story)
    ensures r.id == s.id
    ensures r.name == f.name.GetOr(s.name)
    ensures r.image == f.image.GetOr(s.image)
    ensures r.story == f.story.GetOr(s.story)
  {
    Story(s.id, Overlay(s.name, f.name), Overlay(s.image, f.image), Overlay(s.story, f.story))
  }

  /** The record `handleSubmit` adds: missing or empty name and story become
      "", a missing or empty image becomes the placeholder, so an added story
      never has an empty image. */
  function Build(id: int, f: StoryForm): (r: Story)
    ensures r.id == id && r.image != ""
    ensures f.image.Some? && f.image.value != "" ==> r.image == f.image.value
    ensures f.image.None? || f.image == Some("") ==> r.image == Placeholder
    ensures r.name == f.name.GetOr("") && r.story == f.story.GetOr("")
  {
    Story(id, OrElse(f.name, ""), OrElse(f.image, Placeholder), OrElse(f.story, ""))
  }

  /** `setFormData(character)`: merging the seeded form over any record with
      the same id yields the seeded record, and building from it reproduces
      the record unless its image is empty. */
  function Seed(s: Story): (r: StoryForm)
    ensures forall x: Story :: x.id == s.id ==> Merge(x, r) == s
    ensures s.image != "" <==> Build(s.id, r) == s
  {
    StoryForm(Some(s.name), Some(s.image), Some(s.story))
  }

  /** `handleSubmit`: update the edited story's key, or append a new story. */
  function Submit(p: Page, freshId: int): (r: Page)
    ensures r.editing == None && r.form == Blank && !r.dialogOpen
    ensures p.editing.Some? ==> |r.items| == |p.items|
    ensures p.editing.Some? ==> forall i :: 0 <= i < |p.items| ==>
              r.items[i] == if p.items[i].id == p.editing.value.id then Merge(p.items[i], p.form) else p.items[i]
    ensures p.editing.None? ==> |r.items| == |p.items| + 1 && r.items[..|p.items|] == p.items
    ensures p.editing.None? ==> r.items[|p.items|] == Build(freshId, p.form)
  {
    var r := Editor.Submit(p, IdOf, Merge, Build, freshId, Blank);
    assert p.editing.None? ==> r.items[..|p.items|] == p.items;
    r
  }

  /** `handleEdit`. */
  function Edit(p: Page, s: Story): (r: Page)
    ensures r.editing == Some(s) && r.dialogOpen && r.items == p.items
    ensures forall x: Story :: x.id == s.id ==> Merge(x, r.form) == s
  {
    Editor.BeginEdit(p, s, Seed)
  }

  /** `handleDelete`. */
  function Delete(p: Page, id: int): (r: Page)
    ensures forall i :: 0 <= i < |r.items| ==> r.items[i] in p.items && r.items[i].id != id
    ensures forall i :: 0 <= i < |p.items| && p.items[i].id != id ==> p.items[i] in r.items
    ensures RecordList.SubseqOf(r.items, p.items)
    ensures |r.items| + |RecordList.WithId(p.items, IdOf, id)| == |p.items|
    ensures r.editing == p.editing && r.form == p.form && r.dialogOpen == p.dialogOpen
  {
    Editor.Delete(p, IdOf, id)
  }

  /** `resetForm`, run by the header's add button. */
  function ResetForm(p: Page): (r: Page)
    ensures r.editing == None && r.form == Blank && r.items == p.items
  {
    Editor.ResetForm(p, Blank)
  }

  /** Adding then deleting a story under an id no story has restores the list. */
  lemma AddThenDelete(p: Page, freshId: int)
    requires p.editing.None?
    requires forall i :: 0 <= i < |p.items| ==> p.items[i].id != freshId
    ensures Delete(Submit(p, freshId), freshId).items == p.items
  {
    Editor.AddThenDeleteRestores(p, IdOf, Merge, Build, freshId, Blank);
  }

  /** Opening a story with a unique id and saving it untouched changes nothing. */
  lemma EditThenSave(p: Page, s: Story, freshId: int)
    requires forall i :: 0 <= i < |p.items| && p.items[i].id == s.id ==> p.items[i] == s
    ensures Submit(Edit(p, s), freshId).items == p.items
  {
    Editor.EditThenSubmitUnchanged(p, s, IdOf, Merge, Build, Seed, freshId, Blank);
  }

  /** The page's two opening stories, with their long texts shortened. */
  const Opening: seq<Story> := [
    Story(1, "Lý Bạch", Placeholder, "Thi Tiên"),
    Story(2, "Tô Đông Pha", Placeholder, "Văn hào đời Tống")
  ]

  /** The empty-list button as written: from the opening page, edit story 1,
      cancel, delete story 2 and story 1, then press "add the first story",
      type a name and a story over the stale form and submit. The dialog is
      still editing the deleted story, so nothing is added. */
  lemma EmptyListButtonLosesAdd()
    ensures
      var p := Editor.Editor(Opening, None, Blank, false);
      var stale := Delete(Delete(Editor.CloseDialog(Edit(p, Opening[0])), 2), 1);
      var typed := Seed(Opening[0]).(name := Some("Đỗ Phủ"), story := Some("Thi Thánh"));
      stale.items == [] && Submit(Editor.SetForm(Editor.OpenDialog(stale), typed), 3).items == []
  {
  }

  /** The same sequence through the add button's reset, typing the two
      required fields into the empty form: the story is added. */
  lemma AddButtonKeepsAdd()
    ensures
      var p := Editor.Editor(Opening, None, Blank, false);
      var stale := Delete(Delete(Editor.CloseDialog(Edit(p, Opening[0])), 2), 1);
      var typed := Blank.(name := Some("Đỗ Phủ"), story := Some("Thi Thánh"));
      Submit(Editor.SetForm(Editor.OpenForAdd(stale, Blank), typed), 3).items
        == [Story(3, "Đỗ Phủ", Placeholder, "Thi Thánh")]
  {
  }
}

=== FILE: thien.dfy ===
/** The Thiên character page. Its list, dialog, submit and row toggle are the
    shared `Characters` handlers; only delete is its own. */
module Thien {
  import opened Wrappers
  import Characters

  /** `handleDelete(id)`: nothing happens unless the operator confirms; after
      confirming, the list changes only when the database call succeeds, and
      then exactly the characters with the id are removed. */
  function Delete(p: Characters.Page, id: string, confirmed: bool, outcome: Characters.Remote): (r: Characters.Page)
    ensures !confirmed || outcome.Failed? ==> r == p
    ensures confirmed && outcome.Succeeded? ==> r == Characters.RemoveId(p, id)
    ensures forall i :: 0 <= i < |r.editor.items| ==> r.editor.items[i] in p.editor.items
    ensures confirmed && outcome.Succeeded? ==>
              forall i :: 0 <= i < |r.editor.items| ==> r.editor.items[i].id != Some(id)
  {
    if !confirmed then p
    else if outcome.Failed? then p
    else Characters.RemoveId(p, id)
  }
}

=== FILE: wrappers.dfy ===
/** Optional values and the two JavaScript idioms every form handler uses:
    `value || fallback` on a possibly missing string, and the object spread
    `{ ...record, ...form }` on one key. */
module Wrappers {

  /** A value that may be absent: an optional property, a nullable selection. */
  datatype Option<+T> = None | Some(value: T) {

    /** Returns the encapsulated value, or `default` when there is none. */
    function GetOr(default: T): T {
      match this
      case Some(v) => v
      case None => default
    }
  }

  /** JavaScript `o || fallback` for an optional string: a missing key and the
      empty string are both falsy and give the fallback. */
  function OrElse(o: Option<string>, fallback: string): (r: string)
    ensures o.Some? && o.value != "" ==> r == o.value
    ensures o.None? || o.value == "" ==> r == fallback
    ensures r == "" ==> fallback == ""
  {
    if o.Some? && o.value != "" then o.value else fallback
  }

  /** One key of `{ ...base, ...patch }`: a key present in the patch wins,
      even when its value is the empty string. */
  function Overlay<T>(base: T, patch: Option<T>): (r: T)
    ensures patch.Some? ==> r == patch.value
    ensures patch.None? ==> r == base
  {
    patch.GetOr(base)
  }

  /** One optional key of `{ ...base, ...patch }`: absent in the patch keeps
      whatever the base had, present or not. */
  function OverlayOption<T>(base: Option<T>, patch: Option<T>): (r: Option<T>)
    ensures patch.Some? ==> r == patch
    ensures patch.None? ==> r == base
  {
    if patch.Some? then patch else base
  }
}
